=== FILE: README.md ===
# taura-2.0 word embeddings, modelled in Dafny

This project models the embedding core of taura-2.0 and proves properties of the model. The core has three parts:

- the vector utilities: cosine similarity, Euclidean distance, nearest-neighbour search, vocabulary counting, and the word2vec text format for saving and loading vectors;
- the `TextProcessor`: normalisation, tokenisation, stopword removal and corpus preparation;
- the bookkeeping of `FastTextTrainer` around the fastText library: default configuration, training parameters, training-data cleaning, and the per-language model cache backed by `<language>.bin` files.

Modules, one per concept:

| file | module | models |
|---|---|---|
| `wrappers.dfy` | `Wrappers` | `Option`, `Result` |
| `seqs.dfy` | `Seqs` | order-preserving filtering (list comprehensions with `if`) |
| `whitespace.dfy` | `Whitespace` | `str.isspace`, `str.split()`, `str.strip()`, `' '.join`, `re.sub(r"\s+", " ", ·)` |
| `vector_store.dfy` | `VectorStore` | an insertion-ordered `Dict[str, np.ndarray]` |
| `metric.dfy` | `Metric` | `cosine_similarity`, `euclidean_distance` |
| `neighbors.dfy` | `Neighbors` | `find_nearest_neighbors` |
| `vocabulary.dfy` | `Vocabulary` | `create_vocabulary` |
| `codec.dfy` | `Codec` | `save_vectors_to_txt`, `load_vectors_from_txt` |
| `processor.dfy` | `Processor` | `TextProcessor` |
| `trainer.dfy` | `Trainer` | `EmbeddingConfig`, `FastTextTrainer` |

Modelling choices:

- **Floats** are reals.
- **`np.linalg.norm`** is a parameter of type `Norm`: any function that is never negative and is zero exactly on the zero vector. Its numeric value is not modelled. `Metric.SignBlind` adds `norm(-v) == norm(v)` for the one lemma that needs it.
- **A dictionary** is a sequence of (key, value) pairs in insertion order. `VectorStore.Put` is `d[k] = v`: it overwrites in place, or appends a new key.
- **NFKC normalisation and `str.lower`** are uninterpreted functions, held in `Processor.Unicode`. Every property holds whatever they do. Whitespace is Python's concrete `isspace` class.
- **Files** are sequences of lines. Float text is a `Codec.FloatFormat`: a `show` (`str`) and `parse` (`float`) pair. `Codec.FaithfulAt` states, for one number, that `show` writes it as one whitespace-free token that `parse` reads back as the same number. Python's `str` of a float64 does this for every finite float64, but not for NaN (`nan != nan`), and not for the float32 arrays fastText returns: `str(np.float32(0.1))` is `0.1`, which `float` reads as a different float64. The round-trip lemmas ask faithfulness only of the numbers actually written (`Codec.FaithfulOn`, `Codec.FaithfulStore`).
- **fastText models** are an opaque type parameter `M`. `fasttext.train_unsupervised` is a parameter `fit`, and so are `get_word_vector` and `get_sentence_vector`. The model directory is a map from file name to model.

Where the code and its documentation differ, the model follows the code:

- `euclidean_distance` broadcasts a length-1 vector against any length, rather than requiring equal lengths.
- `cosine_similarity` returns 0.0 for a zero vector before it checks shapes, so a zero vector of any length scores 0.0.
- `find_nearest_neighbors` with a negative `n` drops the last `|n|` entries, since it uses a Python slice.
- `load_vectors_from_txt` takes any first line with exactly two fields for a header. A file written without a header whose first vector has one component therefore loses its first row on loading (`Codec.HeaderlessOneDimLosesFirstRow`, `Codec.RoundTripExactly`).
- Loading never checks that vectors have equal lengths.
- `prepare_for_fasttext` normalises each text twice, once directly and once inside `tokenize`. `Processor.PrepareWithoutStopwords` shows this equals one normalisation wherever NFKC and lowercasing leave the normalised text alone.

## Model

| member | source | states |
|---|---|---|
| Metric.CosineSimilarity | app/api/embedding/utils.py:11-28 | a zero vector on either side gives exactly 0.0 whatever the lengths; otherwise the call fails exactly when the lengths differ |
| Metric.Dot | app/api/embedding/utils.py:28 | `np.dot` of a zero vector with any vector of its length is 0.0 |
| Metric.Difference | app/api/embedding/utils.py:33 | `a - b` under broadcasting: defined exactly when the lengths agree or one side has length 1; componentwise difference for equal lengths |
| Metric.EuclideanDistance | app/api/embedding/utils.py:31-33 | never negative; fails exactly when broadcasting fails; for equal lengths it is zero exactly when the vectors are equal |
| Metric.DotSymmetric | app/api/embedding/utils.py:28 | the dot product does not depend on argument order |
| Metric.CosineSymmetric | app/api/embedding/utils.py:11-28 | cosine similarity is symmetric, including its zero-vector and error cases |
| Metric.EuclideanSymmetric | app/api/embedding/utils.py:31-33 | Euclidean distance is symmetric, including broadcasting, given a sign-blind norm |
| Neighbors.Score | app/api/embedding/utils.py:59-67 | cosine scores a zero query 0.0; Euclidean scores are never positive and, for equal lengths, zero exactly on an exact match; scoring fails exactly when the metric fails |
| Neighbors.ScoreAll | app/api/embedding/utils.py:58-67 | one scored entry per stored word, in dictionary order, each with its own score; fails exactly when some score fails |
| Neighbors.SortDesc | app/api/embedding/utils.py:70 | gives only the number of entries; that the sort is a permutation, descending and stable is stated by Neighbors.SortDescPermutes, Neighbors.SortDescSorted and Neighbors.SortStable |
| Neighbors.InsertSorted | app/api/embedding/utils.py:70 | inserting into a descending sequence keeps it descending |
| Neighbors.SortDescPermutes | app/api/embedding/utils.py:70 | the sort is a permutation of its input |
| Neighbors.SortDescSorted | app/api/embedding/utils.py:70 | the sort orders scores from highest to lowest |
| Neighbors.InsertStable | app/api/embedding/utils.py:70 | insertion puts the new entry after every entry with the same score |
| Neighbors.SortStable | app/api/embedding/utils.py:70 | `list.sort` is stable: for each score, the entries carrying it keep their input order |
| Neighbors.SliceLength | app/api/embedding/utils.py:73 | its contract is Python's length rule for `s[:n]`: `min(n, len)` for `n >= 0`, `max(len + n, 0)` for negative `n` |
| Neighbors.FindNearestNeighbors | app/api/embedding/utils.py:36-73 | an empty dictionary gives `[]`; otherwise fails exactly when some score fails; the answer has Python's `[:n]` length, is sorted best first, and each entry is a stored word with its score |
| Neighbors.NearestAreBest | app/api/embedding/utils.py:69-73 | every scored word left out of the answer scores no higher than any word in it |
| Neighbors.NearestKeepTieOrder | app/api/embedding/utils.py:69-73 | for every score, the answer's entries with that score are a prefix of the dictionary-order entries with that score |
| Neighbors.NearestDistinct | app/api/embedding/utils.py:58-73 | no word appears twice in the answer |
| Neighbors.EuclideanScoresNonPositive | app/api/embedding/utils.py:64-67 | under the Euclidean metric every returned score is at most zero |
| Neighbors.ZeroQueryKeepsStoreOrder | app/api/embedding/utils.py:54-73 | under cosine a zero query never fails and returns the first `n` words in dictionary order, each scored 0.0 |
| Neighbors.EuclideanExactMatchFirst | app/api/embedding/utils.py:64-73 | under the Euclidean metric, when `[:n]` keeps at least one entry and every stored vector has the query's length, the first stored copy of the query heads the answer with score 0.0 |
| VectorStore.Put | app/api/embedding/utils.py:156 | after `d[k] = v`, `k` maps to `v` and every other key keeps its value |
| VectorStore.PutPlacement | app/api/embedding/utils.py:156 | overwriting keeps the key order; a new key is appended at the end |
| VectorStore.PutKeepsKeysDistinct | app/api/embedding/utils.py:156 | assignment never duplicates a key |
| Vocabulary.AddWords | app/api/embedding/utils.py:90-91 | each word's count grows by its number of occurrences in the sentence, and only seen words have entries |
| Vocabulary.CreateVocabulary | app/api/embedding/utils.py:76-97 | a word is in the vocabulary exactly when it occurs and occurs at least `min_count` times, and its value is its number of occurrences |
| Vocabulary.OccurrencesConcat | app/api/embedding/utils.py:89-91 | word counts add up over concatenated corpora |
| Vocabulary.VocabularyKeysAreWords | app/api/embedding/utils.py:90 | every counted key is a non-empty, whitespace-free word |
| Codec.NatToString | app/api/embedding/utils.py:118-120 | `str` of a count in the header is a non-empty string of decimal digits |
| Codec.NatRoundTrip | app/api/embedding/utils.py:118-120 | the header's decimal numbers read back as the counts written |
| Codec.HeaderLine | app/api/embedding/utils.py:117-120 | the header holds only decimal digits and exactly one space, with a digit at each end |
| Codec.EntryLine | app/api/embedding/utils.py:122-124 | an entry line starts with its word and a space; an empty vector leaves the word and a trailing space |
| Codec.SaveVectors | app/api/embedding/utils.py:100-126 | one line per entry, plus the header first when asked; the header splits into the entry count and the first vector's length in decimal (0 for an empty dictionary), and the entry lines follow in dictionary order, each the entry's word and components |
| Codec.Body | app/api/embedding/utils.py:141-150 | the first line is skipped exactly when it has two whitespace-separated fields (`Codec.LooksLikeHeader`); otherwise every line is read |
| Codec.LoadFrom | app/api/embedding/utils.py:152-156 | when the body loop succeeds, every word already in the dictionary is still in it |
| Codec.LoadVectors | app/api/embedding/utils.py:129-159 | an empty file loads as the empty dictionary, and a loaded dictionary never holds a word twice |
| Codec.HeaderLooksLikeHeader | app/api/embedding/utils.py:117-120 | the header line has exactly the two fields, count and dimension |
| Codec.ShowsParse | app/api/embedding/utils.py:123 | the written components of a vector read back as the vector, when each component is written faithfully |
| Codec.EntryLineParses | app/api/embedding/utils.py:122-124 | an entry line reads back as its word and vector, when the vector's components are written faithfully |
| Codec.EntryLooksLikeHeader | app/api/embedding/utils.py:142-150 | an entry line is taken for a header exactly when its vector has one component |
| Codec.ParseNumbers | app/api/embedding/utils.py:155 | succeeds exactly when every token parses, giving one component per token |
| Codec.ParseLine | app/api/embedding/utils.py:153-156 | fails on a blank line or a bad number; otherwise the first field is the word and each later field parses to the matching component |
| Codec.LoadFromFails | app/api/embedding/utils.py:152-156 | the body loop fails exactly when some line does not parse |
| Codec.LoadFails | app/api/embedding/utils.py:141-156 | loading fails exactly when a line it reads is blank or has a token that is not a number |
| Codec.LoadFromDistinct | app/api/embedding/utils.py:152-156 | a loaded dictionary never holds a word twice |
| Codec.LoadFromIsPutAll | app/api/embedding/utils.py:152-156 | when every line parses, loading assigns the parsed entries in file order |
| Codec.PutAllLastWins | app/api/embedding/utils.py:152-156 | among repeated assignments to a word, the last one wins |
| Codec.LoadLastWins | app/api/embedding/utils.py:141-156 | a word on several lines of the file maps to the vector of its last line |
| Codec.SaveLoadRoundTrip | app/api/embedding/utils.py:100-159 | when every key is a non-empty, whitespace-free word, no key repeats and every number is written faithfully, saving then loading gives back the dictionary, with or without a header, unless a headerless file starts with a one-component vector |
| Codec.HeaderlessOneDimLosesFirstRow | app/api/embedding/utils.py:142-150 | when every key is a non-empty, whitespace-free word, no key repeats and every number is written faithfully, a headerless file whose first vector has one component loads without its first entry |
| Codec.RoundTripExactly | app/api/embedding/utils.py:100-159 | when every key is a non-empty, whitespace-free word, no key repeats and every number is written faithfully, the round trip holds if and only if there is a header, the dictionary is empty, or the first vector is not one-dimensional |
| Whitespace.TrimLeftAllSpace | app/api/embedding/processor.py:46 | stripping leading whitespace leaves nothing exactly when the text is all whitespace |
| Whitespace.Split | app/api/embedding/processor.py:64 | `str.split()` gives no words exactly when the text is empty or all whitespace |
| Whitespace.Strip | app/api/embedding/processor.py:46 | `str.strip()` gives a slice of the text with only whitespace outside it, and a non-empty result starts and ends with a non-whitespace character |
| Whitespace.Collapse | app/api/embedding/processor.py:43 | replacing whitespace runs by one space never lengthens the text, empties only the empty text, and leaves every whitespace character an ASCII space not followed by whitespace |
| Whitespace.CollapseKeepsWords | app/api/embedding/processor.py:43 | collapsing whitespace runs keeps exactly the words `str.split()` finds |
| Whitespace.JoinSpace | app/api/embedding/processor.py:117 | the joined text starts with the first element; joining words gives the empty string only for no words |
| Whitespace.SplitYieldsWords | app/api/embedding/processor.py:64 | `str.split()` yields non-empty, whitespace-free words |
| Whitespace.SplitJoinSpace | app/api/embedding/processor.py:117 | splitting undoes `' '.join` on words |
| Whitespace.SplitKeepsContent | app/api/embedding/processor.py:64 | splitting keeps every non-whitespace character, in order, and nothing else |
| Whitespace.CollapseStripIsJoinSplit | app/api/embedding/processor.py:42-46 | collapsing whitespace runs and stripping equals splitting and rejoining with single spaces |
| Whitespace.JoinSpaceWellSpaced | app/api/embedding/processor.py:117 | words joined by single spaces have no leading, trailing or doubled whitespace |
| Seqs.FilterCounts | app/api/embedding/processor.py:86 | a filtering comprehension keeps every occurrence of a kept element and none of the others |
| Seqs.FilterSubsequence | app/api/embedding/processor.py:86 | a filtering comprehension never reorders |
| Seqs.FilterPrefix | app/api/embedding/utils.py:73 | filtering a prefix yields a prefix of the filtered whole |
| Processor.NewTextProcessor | app/api/embedding/processor.py:11-18 | a missing stopword mapping means no language has stopwords |
| Processor.NormalizeText | app/api/embedding/processor.py:21-48 | `None`, non-strings and the empty string give `""`; otherwise the words of the NFKC-normalised, lowercased text joined by single spaces, which are well spaced |
| Processor.SplitNormalized | app/api/embedding/processor.py:61-64 | the normalised text splits into words that rejoin to it, the same words as the lowercased NFKC text |
| Processor.Segment | app/api/embedding/processor.py:66-70 | the per-language step returns its tokens unchanged for every language, Kikuyu included |
| Processor.Tokenize | app/api/embedding/processor.py:50-72 | the tokens are words that rejoin to the normalised text; empty input gives no tokens |
| Processor.TokenizeIgnoresLanguage | app/api/embedding/processor.py:66-70 | the language argument has no effect on the tokens |
| Processor.RemoveStopwords | app/api/embedding/processor.py:74-88 | an unregistered language passes tokens through; otherwise no stopword is left, order is kept and every other token keeps all its occurrences |
| Processor.ProcessText | app/api/embedding/processor.py:105-117 | one processed text splits into exactly the tokens of the normalised text, minus the stopwords when removal is on; it is well spaced and, with removal on, free of stopwords |
| Processor.PrepareForFastText | app/api/embedding/processor.py:90-123 | the processed texts, in input order and with all multiplicities, minus the empty ones; each well spaced and free of stopwords when removal is on |
| Processor.NormalizeIdempotent | app/api/embedding/processor.py:21-48 | normalising normalised text changes nothing where NFKC and lowercasing leave it alone |
| Processor.PrepareWithoutStopwords | app/api/embedding/processor.py:103-123 | without stopword removal, preparation is one normalisation per text with the empty results dropped, where NFKC and lowercasing leave the results alone |
| Trainer.EffectiveConfig | app/api/embedding/trainer.py:18-29 | an absent configuration means dim 300, min_count 5, epoch 10, lr 0.05, word_ngrams 2, minn 3, maxn 6, bucket 2000000, thread 4, loss "ns" |
| Trainer.TrainingParams | app/api/embedding/trainer.py:67-79 | the parameter dictionary has exactly fastText's eleven keys |
| Trainer.ParamsCarryConfig | app/api/embedding/trainer.py:67-79 | every configuration field reaches fastText unchanged under its own name, and `input` is the data file |
| Trainer.CleanEach | app/api/embedding/trainer.py:45-46 | one cleaned sentence per input sentence, at the same position |
| Trainer.CleanLine | app/api/embedding/trainer.py:46 | a cleaned sentence is well spaced and holds the words of the lowercased sentence |
| Trainer.PreprocessData | app/api/embedding/trainer.py:43-51 | the training file holds at most one line per sentence, none blank, all well spaced |
| Trainer.PreprocessKeepsOrder | app/api/embedding/trainer.py:45-48 | the training lines are a subsequence of the cleaned sentences, holding every non-blank cleaned sentence as often as it occurs and no blank line |
| Trainer.CleanLineIsNormalizeWithoutNfkc | app/api/embedding/trainer.py:46 | cleaning agrees with `normalize_text` on any non-empty text NFKC leaves alone |
| Trainer.CleanLineIdempotent | app/api/embedding/trainer.py:46 | cleaning a cleaned line changes nothing where lowercasing leaves it alone |
| Trainer.NewTrainer | app/api/embedding/trainer.py:37-40 | a new trainer starts with an empty cache over the existing directory |
| Trainer.ModelFile | app/api/embedding/trainer.py:85 | a language's model file is the language name followed by `.bin` |
| Trainer.TempFile | app/api/embedding/trainer.py:64 | a language's training-data file is the language name followed by `_temp.txt` |
| Trainer.TempFileNeverModelFile | app/api/embedding/trainer.py:64-91 | deleting a training-data file can never remove a saved model |
| Trainer.ModelFileInjective | app/api/embedding/trainer.py:85 | distinct languages whose names hold no path separator are saved to distinct files |
| Trainer.TrainModel | app/api/embedding/trainer.py:53-93 | the model is trained on the cleaned data with the effective parameters, cached under the language, and written to `<language>.bin` exactly when saving is requested |
| Trainer.LoadModel | app/api/embedding/trainer.py:95-108 | cached model first, else the saved model (now cached), else `None` with nothing changed; the directory is never modified |
| Trainer.LoadModelIdempotent | app/api/embedding/trainer.py:95-108 | loading a second time changes nothing and returns the same answer |
| Trainer.LoadModelOthersUnchanged | app/api/embedding/trainer.py:98-105 | loading one language leaves other languages' cache entries alone |
| Trainer.TrainThenLoad | app/api/embedding/trainer.py:89 | after training, loading the language returns the new model |
| Trainer.SavedModelSurvivesRestart | app/api/embedding/trainer.py:84-87 | a saved model is found by a new trainer over the same directory |
| Trainer.UnsavedModelIsForgotten | app/api/embedding/trainer.py:84-89 | an unsaved model is only in the cache; a new trainer finds whatever was saved before |
| Trainer.QueryModel | app/api/embedding/trainer.py:110-122 | a query gives `None` exactly when no model is found, otherwise the model's answer, with the cache updated as by `load_model` |
| Trainer.GetWordVector | app/api/embedding/trainer.py:110-115 | `None` exactly when the language has no cached or saved model, otherwise the cached model's word vector; the trainer changes only as `load_model` changes it |
| Trainer.GetSentenceVector | app/api/embedding/trainer.py:117-122 | `None` exactly when the language has no cached or saved model, otherwise the cached model's sentence vector; the trainer changes only as `load_model` changes it |

## Left out

- Floating point: vectors are reals, so rounding, NaN and infinities are not modelled. The cosine range [-1, 1] and `cosine_similarity(v, v) == 1` need the numeric value of the norm, which is left abstract.
- Metric.EuclideanSymmetric: requires a sign-blind norm (`Metric.SignBlind`), which `np.linalg.norm` is but an arbitrary `Norm` need not be.
- Unicode tables: NFKC normalisation and `str.lower` are uninterpreted functions.
- Processor.NormalizeIdempotent: idempotence of `normalize_text` is proved only where NFKC and lowercasing leave the normalised text alone, because their tables are not modelled.
- File I/O: opening files, newline characters, encodings, `mkdir`, and logging are not modelled. Files are sequences of lines.
- Trainer.ModelFileInjective: requires language names without `/`. pathlib normalises joined paths, so `"en"` and `"./en"` name the same `en.bin`, and a name with `/` can leave the model directory.
- Trainer.LoadModel: the directory is keyed by the unnormalised string `<language>.bin`. For names containing `/`, two languages that pathlib maps to one file are two files here.
- Codec.SaveLoadRoundTrip: requires every written number to read back as itself (`Codec.FaithfulStore`). This fails for NaN and for float32 components, which is what fastText's vectors are: such a vector is loaded as the float64 nearest its shortest float32 text, not as itself. For such numbers the model promises nothing about what is loaded.
- Trainer.TrainModel: the temporary training file is not kept in the directory state, because it is written and deleted within one call. Trainer.TempFileNeverModelFile shows the deletion cannot touch a model file.
- Trainer.TrainModel: fastText training and loading failures (exceptions from the library) are not modelled, because the library is outside this model.
- fastText internals: how models are trained and how word and sentence vectors are computed are opaque parameters.
- Vocabulary.CreateVocabulary: returns a `map`, so the insertion order of the Python dictionary is not modelled. No caller depends on it.
- Codec.SaveVectors: the length of each saved vector is not checked against the header's dimension, and `save_vectors_to_txt` does not check it either.
- Processor.Tokenize: the Kikuyu branch of `TextProcessor.tokenize` is a no-op, and stays one here.
- List arguments (`texts`, `sentences`, `train_data`) are assumed to hold strings, and are `seq<string>` here. Only `normalize_text`'s argument may be `None` or a non-string (`Processor.PyValue`), as its `isinstance` test allows.
- Default arguments (`n=5`, `metric="cosine"`, `min_count=5`, `header=True`, `language="english"`, `remove_stopwords=False`, `save_model=True`) are not modelled: every modelled call takes all its arguments explicitly, so callers pass the defaults themselves.

=== FILE: codec.dfy ===
/** The word2vec text format of `save_vectors_to_txt` and `load_vectors_from_txt`,
    at the level of the file's lines: an optional "<count> <dimension>" header, then
    one "<word> <x1> <x2> ..." line per vector. */
module Codec {
  import opened Wrappers
  import opened Whitespace
  import opened VectorStore

  /** How a float is written (`str(x)`) and read back (`float(s)`). */
  datatype FloatFormat = FloatFormat(show: real -> string, parse: string -> Option<real>)

  /** `x` is written as a single whitespace-free token that reads back as `x`.
      Python's `str` of a finite float64 writes the shortest text that `float`
      reads back to the same float64. NaN never reads back as itself, and a float32
      is written as its own shortest text, which `float` reads as a different
      float64; so the model asks this only of the numbers actually written. */
  predicate FaithfulAt(fmt: FloatFormat, x: real) {
    fmt.parse(fmt.show(x)) == Some(x) && IsWord(fmt.show(x))
  }

  /** Every component of `v` is written faithfully. */
  predicate FaithfulOn(fmt: FloatFormat, v: Vector) {
    forall i :: 0 <= i < |v| ==> FaithfulAt(fmt, v[i])
  }

  /** Every stored vector is written faithfully. */
  predicate FaithfulStore(fmt: FloatFormat, store: Store) {
    forall i :: 0 <= i < |store| ==> FaithfulOn(fmt, store[i].1)
  }

  /** Why a line could not be read: a blank line has no `parts[0]` (`IndexError`),
      and a token `float` rejects (`ValueError`). */
  datatype LoadError = MissingWord | BadNumber(token: string)

  /** The decimal digit for `d`. */
  function Digit(d: nat): (c: char)
    requires d < 10
    ensures '0' <= c <= '9'
  {
    ('0' as int + d) as char
  }

  /** `str(n)` for a natural number. */
  function NatToString(n: nat): (s: string)
    ensures IsWord(s)
    ensures forall i :: 0 <= i < |s| ==> '0' <= s[i] <= '9'
  {
    if n < 10 then [Digit(n)] else NatToString(n / 10) + [Digit(n % 10)]
  }

  /** `int(s)` for a string of decimal digits. */
  function ParseNat(s: string): nat
    requires forall i :: 0 <= i < |s| ==> '0' <= s[i] <= '9'
  {
    if s == [] then 0
    else ParseNat(s[..|s| - 1]) * 10 + (s[|s| - 1] as int - '0' as int)
  }

  /** Reading back a written count gives the count. */
  lemma {:induction false} NatRoundTrip(n: nat)
    ensures ParseNat(NatToString(n)) == n
    decreases n
  {
    if n >= 10 {
      NatRoundTrip(n / 10);
      var s := NatToString(n);
      assert s[..|s| - 1] == NatToString(n / 10);
    }
  }

  /** The header line: the number of vectors and the length of the first one
      (0 for an empty store). */
  function HeaderLine(store: Store): (r: string)
    ensures r != [] && r[0] != ' ' && r[|r| - 1] != ' '
    ensures forall i :: 0 <= i < |r| ==> r[i] == ' ' || '0' <= r[i] <= '9'
    ensures multiset(r)[' '] == 1
  {
    var count := NatToString(|store|);
    var dim := NatToString(if store == [] then 0 else |store[0].1|);
    DigitsSpaceDigits(count, dim);
    count + " " + dim
  }

  /** Two digit strings joined by a space: digits at both ends and exactly one space. */
  lemma DigitsSpaceDigits(a: string, b: string)
    requires a != [] && forall i :: 0 <= i < |a| ==> '0' <= a[i] <= '9'
    requires b != [] && forall i :: 0 <= i < |b| ==> '0' <= b[i] <= '9'
    ensures var r := a + " " + b;
      && r[0] != ' ' && r[|r| - 1] != ' '
      && (forall i :: 0 <= i < |r| ==> r[i] == ' ' || '0' <= r[i] <= '9')
      && multiset(r)[' '] == 1
  {
    var r := a + " " + b;
    DigitsHaveNoSpace(a);
    DigitsHaveNoSpace(b);
    assert multiset(r) == multiset(a) + multiset(" ") + multiset(b);
    assert r[0] == a[0] && r[|r| - 1] == b[|b| - 1];
  }

  /** A string of decimal digits holds no space. */
  lemma DigitsHaveNoSpace(s: string)
    requires forall i :: 0 <= i < |s| ==> '0' <= s[i] <= '9'
    ensures multiset(s)[' '] == 0
  {
    assert ' ' !in s;
  }

  /** The tokens written for a vector, in order. */
  function Shows(fmt: FloatFormat, v: Vector): (ts: seq<string>)
    ensures |ts| == |v|
  {
    seq(|v|, i requires 0 <= i < |v| => fmt.show(v[i]))
  }

  /** One entry line: the word, a space, and the components joined by spaces (so
      an empty vector leaves a trailing space). */
  function EntryLine(fmt: FloatFormat, word: string, v: Vector): (r: string)
    ensures word + " " <= r
    ensures v == [] ==> r == word + " "
  {
    word + " " + JoinSpace(Shows(fmt, v))
  }

  /** The entry lines of a whole store, in store order. */
  function EntryLines(fmt: FloatFormat, store: Store): (ls: seq<string>)
    ensures |ls| == |store|
    ensures forall i :: 0 <= i < |store| ==> ls[i] == EntryLine(fmt, store[i].0, store[i].1)
  {
    seq(|store|, i requires 0 <= i < |store| => EntryLine(fmt, store[i].0, store[i].1))
  }

  /** `save_vectors_to_txt`: the lines of the file, without their newlines. */
  function SaveVectors(fmt: FloatFormat, store: Store, header: bool): (ls: seq<string>)
    ensures |ls| == |store| + (if header then 1 else 0)
    ensures header ==> Split(ls[0]) == [NatToString(|store|), NatToString(if store == [] then 0 else |store[0].1|)]
    ensures forall i :: 0 <= i < |store| ==> ls[i + (if header then 1 else 0)] == EntryLine(fmt, store[i].0, store[i].1)
  {
    var entries := EntryLines(fmt, store);
    var ls := WithHeader(header, HeaderLine(store), entries);
    HeaderLooksLikeHeader(store);
    assert forall i :: 0 <= i < |store| ==> ls[i + (if header then 1 else 0)] == entries[i];
    ls
  }

  /** `lines`, after `first` when `header` is set. */
  function WithHeader(header: bool, first: string, lines: seq<string>): (ls: seq<string>)
    ensures |ls| == |lines| + (if header then 1 else 0)
    ensures header ==> ls[0] == first
    ensures forall i :: 0 <= i < |lines| ==> ls[i + (if header then 1 else 0)] == lines[i]
  {
    if header then [first] + lines else lines
  }

  /** `[float(x) for x in tokens]`: the first token `float` rejects aborts. */
  function ParseNumbers(fmt: FloatFormat, tokens: seq<string>): (r: Result<Vector, LoadError>)
    ensures r.Ok? ==> |r.value| == |tokens|
    ensures r.Ok? <==> forall i :: 0 <= i < |tokens| ==> fmt.parse(tokens[i]).Some?
    ensures r.Ok? ==> forall i :: 0 <= i < |tokens| ==> fmt.parse(tokens[i]) == Some(r.value[i])
  {
    if tokens == [] then Ok([])
    else match fmt.parse(tokens[0])
      case None => Err(BadNumber(tokens[0]))
      case Some(x) =>
        match ParseNumbers(fmt, tokens[1..])
        case Err(e) => Err(e)
        case Ok(rest) =>
          assert forall i :: 0 < i < |tokens| ==> tokens[i] == tokens[1..][i - 1];
          Ok([x] + rest)
        }

  /** One line of the body: its first field is the word and the rest its vector. */
  function ParseLine(fmt: FloatFormat, line: string): (r: Result<(string, Vector), LoadError>)
    ensures r.Err? <==> Split(line) == [] || ParseNumbers(fmt, Split(line)[1..]).Err?
    ensures r.Ok? ==> r.value.0 == Split(line)[0] && |r.value.1| == |Split(line)| - 1
    ensures r.Ok? ==> forall i :: 0 <= i < |r.value.1| ==> fmt.parse(Split(line)[i + 1]) == Some(r.value.1[i])
  {
    var parts := Split(line);
    if parts == [] then Err(MissingWord)
    else match ParseNumbers(fmt, parts[1..])
      case Err(e) => Err(e)
      case Ok(v) =>
        assert forall i :: 0 <= i < |v| ==> parts[1..][i] == parts[i + 1];
        Ok((parts[0], v))
  }

  /** The body loop of `load_vectors_from_txt`: each line in turn is parsed and
      assigned into the dictionary; the first failing line aborts the load. */
  function LoadFrom(fmt: FloatFormat, lines: seq<string>, acc: Store): (r: Result<Store, LoadError>)
    ensures r.Ok? ==> forall k :: Lookup(acc, k).Some? ==> Lookup(r.value, k).Some?
    decreases |lines|
  {
    if lines == [] then Ok(acc)
    else match ParseLine(fmt, lines[0])
      case Err(e) => Err(e)
      case Ok(entry) => LoadFrom(fmt, lines[1..], Put(acc, entry.0, entry.1))
  }

  /** The first line is taken for a header, and skipped, exactly when it has two
      whitespace-separated fields. */
  predicate LooksLikeHeader(line: string) {
    |Split(line)| == 2
  }

  /** The lines the body loop reads. */
  function Body(lines: seq<string>): (b: seq<string>)
    ensures b == lines || (lines != [] && b == lines[1..])
    ensures lines != [] ==> (|b| < |lines| <==> LooksLikeHeader(lines[0]))
  {
    if lines != [] && LooksLikeHeader(lines[0]) then lines[1..] else lines
  }

  /** `load_vectors_from_txt`. */
  function LoadVectors(fmt: FloatFormat, lines: seq<string>): (r: Result<Store, LoadError>)
    ensures lines == [] ==> r == Ok([])
    ensures r.Ok? ==> DistinctKeys(r.value)
  {
    var r := LoadFrom(fmt, Body(lines), []);
    if r.Ok? then LoadFromDistinct(fmt, Body(lines), []); r else r
  }

  /** Loading fails exactly when some line it reads fails to parse. */
  lemma {:induction false} LoadFromFails(fmt: FloatFormat, lines: seq<string>, acc: Store)
    ensures LoadFrom(fmt, lines, acc).Err? <==> !AllParse(fmt, lines)
    decreases |lines|
  {
    if lines != [] {
      var first := ParseLine(fmt, lines[0]);
      AllParseCons(fmt, lines);
      if first.Ok? {
        LoadFromFails(fmt, lines[1..], Put(acc, first.value.0, first.value.1));
      }
    }
  }

  /** Every line parses when the first does and every later one does. */
  lemma AllParseCons(fmt: FloatFormat, lines: seq<string>)
    requires lines != []
    ensures AllParse(fmt, lines) <==> ParseLine(fmt, lines[0]).Ok? && AllParse(fmt, lines[1..])
  {
    if ParseLine(fmt, lines[0]).Ok? && AllParse(fmt, lines[1..]) {
      forall j | 0 <= j < |lines| ensures ParseLine(fmt, lines[j]).Ok? {
        if j > 0 {
          assert lines[j] == lines[1..][j - 1];
        }
      }
    }
  }

  /** `load_vectors_from_txt` fails exactly when a line it reads is blank or holds
      a token that is not a number. */
  lemma LoadFails(fmt: FloatFormat, lines: seq<string>)
    ensures LoadVectors(fmt, lines).Err? <==>
      exists j :: 0 <= j < |Body(lines)| && (Split(Body(lines)[j]) == [] || ParseNumbers(fmt, Split(Body(lines)[j])[1..]).Err?)
  {
    LoadFromFails(fmt, Body(lines), []);
    var b := Body(lines);
    if !AllParse(fmt, b) {
      var j :| 0 <= j < |b| && ParseLine(fmt, b[j]).Err?;
      assert Split(b[j]) == [] || ParseNumbers(fmt, Split(b[j])[1..]).Err?;
    }
  }

  /** A loaded dictionary never holds a word twice. */
  lemma {:induction false} LoadFromDistinct(fmt: FloatFormat, lines: seq<string>, acc: Store)
    requires DistinctKeys(acc)
    requires LoadFrom(fmt, lines, acc).Ok?
    ensures DistinctKeys(LoadFrom(fmt, lines, acc).value)
    decreases |lines|
  {
    if lines != [] {
      var entry := ParseLine(fmt, lines[0]).value;
      PutKeepsKeysDistinct(acc, entry.0, entry.1);
      LoadFromDistinct(fmt, lines[1..], Put(acc, entry.0, entry.1));
    }
  }

  /** Every line parses. */
  predicate AllParse(fmt: FloatFormat, lines: seq<string>) {
    forall j :: 0 <= j < |lines| ==> ParseLine(fmt, lines[j]).Ok?
  }

  /** The (word, vector) entry of every line, in order. */
  function Parsed(fmt: FloatFormat, lines: seq<string>): (es: seq<(string, Vector)>)
    requires AllParse(fmt, lines)
    ensures |es| == |lines|
    ensures forall j :: 0 <= j < |lines| ==> ParseLine(fmt, lines[j]) == Ok(es[j])
  {
    seq(|lines|, j requires 0 <= j < |lines| && AllParse(fmt, lines) => ParseLine(fmt, lines[j]).value)
  }

  /** `vectors[word] = vector` for each entry in turn. */
  function PutAll(acc: Store, entries: seq<(string, Vector)>): Store
    decreases |entries|
  {
    if entries == [] then acc else PutAll(Put(acc, entries[0].0, entries[0].1), entries[1..])
  }

  /** When every line parses, loading assigns the parsed entries in order. */
  lemma {:induction false} LoadFromIsPutAll(fmt: FloatFormat, lines: seq<string>, acc: Store)
    requires AllParse(fmt, lines)
    ensures LoadFrom(fmt, lines, acc) == Ok(PutAll(acc, Parsed(fmt, lines)))
    decreases |lines|
  {
    if lines != [] {
      var e := Parsed(fmt, lines);
      ParsedTail(fmt, lines);
      LoadFromIsPutAll(fmt, lines[1..], Put(acc, e[0].0, e[0].1));
    }
  }

  /** The parsed entries of all lines but the first are the parsed entries minus the first. */
  lemma ParsedTail(fmt: FloatFormat, lines: seq<string>)
    requires AllParse(fmt, lines) && lines != []
    ensures AllParse(fmt, lines[1..])
    ensures Parsed(fmt, lines[1..]) == Parsed(fmt, lines)[1..]
  {
    AllParseCons(fmt, lines);
    var e := Parsed(fmt, lines);
    var e1 := Parsed(fmt, lines[1..]);
    forall j | 0 <= j < |e1| ensures e1[j] == e[1..][j] {
      assert lines[1..][j] == lines[j + 1];
    }
  }

  /** A word no entry mentions keeps what the dictionary already held. */
  lemma {:induction false} PutAllUntouched(acc: Store, entries: seq<(string, Vector)>, w: string)
    requires forall j :: 0 <= j < |entries| ==> entries[j].0 != w
    ensures Lookup(PutAll(acc, entries), w) == Lookup(acc, w)
    decreases |entries|
  {
    if entries != [] {
      assert forall j :: 0 <= j < |entries[1..]| ==> entries[1..][j] == entries[j + 1];
      PutAllUntouched(Put(acc, entries[0].0, entries[0].1), entries[1..], w);
    }
  }

  /** The last assignment to a word wins. */
  lemma {:induction false} PutAllLastWins(acc: Store, entries: seq<(string, Vector)>, j: nat)
    requires j < |entries|
    requires forall k :: j < k < |entries| ==> entries[k].0 != entries[j].0
    ensures Lookup(PutAll(acc, entries), entries[j].0) == Some(entries[j].1)
    decreases |entries|
  {
    var next := Put(acc, entries[0].0, entries[0].1);
    var rest := entries[1..];
    if j == 0 {
      assert forall k :: 0 <= k < |rest| ==> rest[k] == entries[k + 1];
      PutAllUntouched(next, rest, entries[0].0);
    } else {
      assert rest[j - 1] == entries[j];
      assert forall k :: j - 1 < k < |rest| ==> rest[k] == entries[k + 1];
      PutAllLastWins(next, rest, j - 1);
    }
  }

  /** When a word is on several lines the last one wins (`vectors[word] = vector`
      overwrites). */
  lemma LoadLastWins(fmt: FloatFormat, lines: seq<string>, j: nat)
    requires AllParse(fmt, Body(lines))
    requires j < |Body(lines)|
    requires var e := Parsed(fmt, Body(lines)); forall k :: j < k < |e| ==> e[k].0 != e[j].0
    ensures LoadVectors(fmt, lines).Ok?
    ensures var e := Parsed(fmt, Body(lines));
      Lookup(LoadVectors(fmt, lines).value, e[j].0) == Some(e[j].1)
  {
    LoadFromIsPutAll(fmt, Body(lines), []);
    PutAllLastWins([], Parsed(fmt, Body(lines)), j);
  }

  /** Reading back the written components of a vector gives the vector. */
  lemma {:induction false} ShowsParse(fmt: FloatFormat, v: Vector)
    requires FaithfulOn(fmt, v)
    ensures ParseNumbers(fmt, Shows(fmt, v)) == Ok(v)
    decreases |v|
  {
    if v != [] {
      assert FaithfulOn(fmt, v[1..]) by {
        forall i | 0 <= i < |v[1..]| ensures FaithfulAt(fmt, v[1..][i]) {
          assert v[1..][i] == v[i + 1];
        }
      }
      ShowsParse(fmt, v[1..]);
      var ts := Shows(fmt, v);
      assert ts[1..] == Shows(fmt, v[1..]);
      assert FaithfulAt(fmt, v[0]);
      assert v == [v[0]] + v[1..];
    }
  }

  /** The fields of an entry line are the word and the written components. */
  lemma EntryLineFields(fmt: FloatFormat, word: string, v: Vector)
    requires FaithfulOn(fmt, v) && IsWord(word)
    ensures Split(EntryLine(fmt, word, v)) == [word] + Shows(fmt, v)
  {
    var ts := Shows(fmt, v);
    if ts == [] {
      SplitCons(word, " ");
      assert Split(" ") == [];
      assert EntryLine(fmt, word, v) == word + " ";
    } else {
      forall i | 0 <= i < |ts| ensures IsWord(ts[i]) {
        assert FaithfulAt(fmt, v[i]);
      }
      assert AllWords([word] + ts);
      assert JoinSpace([word] + ts) == EntryLine(fmt, word, v) by {
        assert ([word] + ts)[1..] == ts;
      }
      SplitJoinSpace([word] + ts);
    }
  }

  /** An entry line parses back to its word and vector. */
  lemma EntryLineParses(fmt: FloatFormat, word: string, v: Vector)
    requires FaithfulOn(fmt, v) && IsWord(word)
    ensures ParseLine(fmt, EntryLine(fmt, word, v)) == Ok((word, v))
  {
    EntryLineFields(fmt, word, v);
    ShowsParse(fmt, v);
    assert ([word] + Shows(fmt, v))[1..] == Shows(fmt, v);
  }

  /** The keys are words `str.split()` keeps intact. */
  predicate WordKeys(store: Store) {
    forall i :: 0 <= i < |store| ==> IsWord(store[i].0)
  }

  /** Loading the entry lines from position `i` on, onto the entries before `i`,
      rebuilds the store. */
  lemma {:induction false} LoadEntries(fmt: FloatFormat, store: Store, i: nat)
    requires FaithfulStore(fmt, store) && WordKeys(store) && DistinctKeys(store)
    requires i <= |store|
    ensures LoadFrom(fmt, EntryLines(fmt, store)[i..], store[..i]) == Ok(store)
    decreases |store| - i
  {
    if i == |store| {
      assert store[..i] == store;
    } else {
      LoadEntryStep(fmt, store, i);
      LoadEntries(fmt, store, i + 1);
    }
  }

  /** One step of `LoadEntries`: entry `i` parses and is appended after the others. */
  lemma LoadEntryStep(fmt: FloatFormat, store: Store, i: nat)
    requires FaithfulStore(fmt, store) && WordKeys(store) && DistinctKeys(store)
    requires i < |store|
    ensures LoadFrom(fmt, EntryLines(fmt, store)[i..], store[..i])
         == LoadFrom(fmt, EntryLines(fmt, store)[i + 1..], store[..i + 1])
  {
    var lines := EntryLines(fmt, store)[i..];
    var entry := store[i];
    EntryLineParses(fmt, entry.0, entry.1);
    assert lines[0] == EntryLine(fmt, entry.0, entry.1);
    assert lines[1..] == EntryLines(fmt, store)[i + 1..];
    NewKeyAppends(store, i);
  }

  /** With distinct keys, assigning entry `i` after the entries before it appends it. */
  lemma NewKeyAppends(store: Store, i: nat)
    requires DistinctKeys(store) && i < |store|
    ensures Put(store[..i], store[i].0, store[i].1) == store[..i + 1]
  {
    var prefix := store[..i];
    assert store[i].0 !in Keys(prefix);
    PutPlacement(prefix, store[i].0, store[i].1);
    PrefixGrows(store, i);
  }

  /** Extending a prefix by the next element gives the next prefix. */
  lemma PrefixGrows(store: Store, i: nat)
    requires i < |store|
    ensures store[..i] + [(store[i].0, store[i].1)] == store[..i + 1]
  {
  }

  /** A header line has exactly two fields. */
  lemma HeaderLooksLikeHeader(store: Store)
    ensures Split(HeaderLine(store)) == [NatToString(|store|), NatToString(if store == [] then 0 else |store[0].1|)]
    ensures LooksLikeHeader(HeaderLine(store))
  {
    var a := NatToString(|store|);
    var b := NatToString(if store == [] then 0 else |store[0].1|);
    SplitJoinSpace([a, b]);
    assert JoinSpace([a, b]) == HeaderLine(store) by {
      assert [a, b][1..] == [b];
    }
  }

  /** An entry line looks like a header exactly when its vector has one component. */
  lemma EntryLooksLikeHeader(fmt: FloatFormat, word: string, v: Vector)
    requires FaithfulOn(fmt, v) && IsWord(word)
    ensures LooksLikeHeader(EntryLine(fmt, word, v)) <==> |v| == 1
  {
    EntryLineFields(fmt, word, v);
  }

  /** Saving and loading gives the store back, with or without a header, unless
      the file has no header and its first vector has exactly one component. */
  lemma SaveLoadRoundTrip(fmt: FloatFormat, store: Store, header: bool)
    requires FaithfulStore(fmt, store) && WordKeys(store) && DistinctKeys(store)
    requires header || store == [] || |store[0].1| != 1
    ensures LoadVectors(fmt, SaveVectors(fmt, store, header)) == Ok(store)
  {
    var lines := SaveVectors(fmt, store, header);
    var entries := EntryLines(fmt, store);
    if header {
      HeaderLooksLikeHeader(store);
      assert Body(lines) == entries;
    } else if store != [] {
      EntryLooksLikeHeader(fmt, store[0].0, store[0].1);
      assert Body(lines) == entries;
    }
    LoadEntries(fmt, store, 0);
    assert entries[0..] == entries && store[..0] == [];
  }

  /** Without a header, a first vector of one component makes its line look like a
      header, and the load silently drops that first entry. */
  lemma HeaderlessOneDimLosesFirstRow(fmt: FloatFormat, store: Store)
    requires FaithfulStore(fmt, store) && WordKeys(store) && DistinctKeys(store)
    requires store != [] && |store[0].1| == 1
    ensures LoadVectors(fmt, SaveVectors(fmt, store, false)) == Ok(store[1..])
  {
    var rest := store[1..];
    var lines := SaveVectors(fmt, store, false);
    assert lines == EntryLines(fmt, store);
    EntryLooksLikeHeader(fmt, store[0].0, store[0].1);
    EntryLinesTail(fmt, store);
    assert Body(lines) == EntryLines(fmt, rest);
    assert DistinctKeys(rest);
    assert FaithfulStore(fmt, rest) by {
      forall i | 0 <= i < |rest| ensures FaithfulOn(fmt, rest[i].1) {
        assert rest[i] == store[i + 1];
      }
    }
    LoadEntries(fmt, rest, 0);
    assert EntryLines(fmt, rest)[0..] == EntryLines(fmt, rest) && rest[..0] == [];
  }

  /** Dropping the first entry line leaves the entry lines of the rest of the store. */
  lemma EntryLinesTail(fmt: FloatFormat, store: Store)
    requires store != []
    ensures EntryLines(fmt, store)[1..] == EntryLines(fmt, store[1..])
  {
  }

  /** For a store of word keys, the save/load round trip holds exactly when the
      file has a header, the store is empty, or its first vector is not one-dimensional. */
  lemma RoundTripExactly(fmt: FloatFormat, store: Store, header: bool)
    requires FaithfulStore(fmt, store) && WordKeys(store) && DistinctKeys(store)
    ensures LoadVectors(fmt, SaveVectors(fmt, store, header)) == Ok(store)
        <==> header || store == [] || |store[0].1| != 1
  {
    if header || store == [] || |store[0].1| != 1 {
      SaveLoadRoundTrip(fmt, store, header);
    } else {
      HeaderlessOneDimLosesFirstRow(fmt, store);
      assert |store[1..]| != |store|;
    }
  }
}

=== FILE: metric.dfy ===
/** Similarity and distance between vectors (`cosine_similarity`,
    `euclidean_distance`), over reals, with the norm left abstract. */
module Metric {
  import opened Wrappers
  import opened VectorStore

  /** `np.linalg.norm` on one-dimensional arrays. Its floating-point value is not
      modelled; what the model relies on is that a norm is never negative and is
      zero exactly for the zero vector (the empty vector included). */
  type Norm = f: Vector -> real | forall v :: f(v) >= 0.0 && (f(v) == 0.0 <==> IsZero(v))
    witness (v: Vector) => if IsZero(v) then 0.0 else 1.0

  /** Componentwise negation, `-v`. */
  function Negate(v: Vector): (r: Vector)
    ensures |r| == |v| && forall i :: 0 <= i < |v| ==> r[i] == -v[i]
  {
    seq(|v|, i requires 0 <= i < |v| => -v[i])
  }

  /** The Euclidean norm does not see signs: `norm(-v) == norm(v)`. */
  ghost predicate SignBlind(norm: Norm) {
    forall v :: norm(Negate(v)) == norm(v)
  }

  /** The error numpy raises when two arrays' shapes do not fit the operation. */
  datatype MetricError = ShapeMismatch(left: nat, right: nat)

  /** Every component is zero. */
  predicate IsZero(v: Vector) {
    forall i :: 0 <= i < |v| ==> v[i] == 0.0
  }

  /** `np.dot` of two equally long vectors. */
  function Dot(a: Vector, b: Vector): (r: real)
    requires |a| == |b|
    ensures IsZero(a) || IsZero(b) ==> r == 0.0
  {
    if a == [] then 0.0
    else
      assert IsZero(a) ==> IsZero(a[1..]) && a[0] == 0.0;
      assert IsZero(b) ==> IsZero(b[1..]) && b[0] == 0.0;
      a[0] * b[0] + Dot(a[1..], b[1..])
  }

  /** `cosine_similarity`: a zero vector on either side gives exactly 0.0, whatever
      the lengths; otherwise the lengths must agree (`np.dot` raises) and the result
      is the dot product over the product of the norms. */
  function CosineSimilarity(norm: Norm, a: Vector, b: Vector): (r: Result<real, MetricError>)
    ensures IsZero(a) || IsZero(b) ==> r == Ok(0.0)
    ensures r.Err? <==> !IsZero(a) && !IsZero(b) && |a| != |b|
  {
    var n1 := norm(a);
    var n2 := norm(b);
    if n1 == 0.0 || n2 == 0.0 then Ok(0.0)
    else if |a| != |b| then Err(ShapeMismatch(|a|, |b|))
    else Ok(Dot(a, b) / n1 / n2)
  }

  /** `a - b` under numpy broadcasting: equal lengths subtract componentwise, a
      length-1 side is stretched to the other's length, anything else raises. */
  function Difference(a: Vector, b: Vector): (r: Option<Vector>)
    ensures r.None? <==> |a| != |b| && |a| != 1 && |b| != 1
    ensures |a| == |b| ==>
      (r.Some? && |r.value| == |a| && forall i :: 0 <= i < |a| ==> r.value[i] == a[i] - b[i])
  {
    if |a| == |b| then Some(seq(|a|, i requires 0 <= i < |a| => a[i] - b[i]))
    else if |a| == 1 then Some(seq(|b|, i requires 0 <= i < |b| => a[0] - b[i]))
    else if |b| == 1 then Some(seq(|a|, i requires 0 <= i < |a| => a[i] - b[0]))
    else None
  }

  /** `euclidean_distance`: the norm of the broadcast difference. It is never
      negative, and for equally long vectors it is zero exactly when they are equal. */
  function EuclideanDistance(norm: Norm, a: Vector, b: Vector): (r: Result<real, MetricError>)
    ensures r.Ok? ==> r.value >= 0.0
    ensures r.Err? <==> |a| != |b| && |a| != 1 && |b| != 1
    ensures |a| == |b| ==> (r == Ok(0.0) <==> a == b)
  {
    match Difference(a, b)
    case None => Err(ShapeMismatch(|a|, |b|))
    case Some(d) =>
      assert |a| == |b| ==> (IsZero(d) <==> a == b) by {
        if |a| == |b| && IsZero(d) {
          forall i | 0 <= i < |a| ensures a[i] == b[i] {
            assert d[i] == a[i] - b[i];
          }
        }
      }
      Ok(norm(d))
  }

  /** `np.dot` does not depend on the order of its arguments. */
  lemma {:induction false} DotSymmetric(a: Vector, b: Vector)
    requires |a| == |b|
    ensures Dot(a, b) == Dot(b, a)
    decreases |a|
  {
    if a != [] {
      DotSymmetric(a[1..], b[1..]);
    }
  }

  /** Dividing by two non-zero numbers in either order gives the same quotient. */
  lemma DivideTwice(x: real, p: real, q: real)
    requires p != 0.0 && q != 0.0
    ensures x / p / q == x / q / p
  {
  }

  /** Cosine similarity is symmetric, including its zero-vector and error cases. */
  lemma CosineSymmetric(norm: Norm, a: Vector, b: Vector)
    ensures CosineSimilarity(norm, a, b).Err? == CosineSimilarity(norm, b, a).Err?
    ensures CosineSimilarity(norm, a, b).Ok? ==> CosineSimilarity(norm, a, b) == CosineSimilarity(norm, b, a)
  {
    if |a| == |b| && !IsZero(a) && !IsZero(b) {
      DotSymmetric(a, b);
      DivideTwice(Dot(a, b), norm(a), norm(b));
    }
  }

  /** Euclidean distance is symmetric, including its broadcasting and error cases. */
  lemma EuclideanSymmetric(norm: Norm, a: Vector, b: Vector)
    requires SignBlind(norm)
    ensures EuclideanDistance(norm, a, b) == EuclideanDistance(norm, b, a)
           || (EuclideanDistance(norm, a, b).Err? && EuclideanDistance(norm, b, a).Err?)
  {
    var dab := Difference(a, b);
    var dba := Difference(b, a);
    if dab.Some? {
      assert dba.Some?;
      assert |dab.value| == |dba.value|;
      forall i | 0 <= i < |dab.value|
        ensures dba.value[i] == -dab.value[i]
      {
      }
      assert dba.value == Negate(dab.value);
    }
  }
}

=== FILE: neighbors.dfy ===
/** `find_nearest_neighbors`: score every stored vector against a query, sort the
    scores in descending order with a stable sort, and keep the first `n`. */
module Neighbors {
  import opened Wrappers
  import opened Seqs
  import opened VectorStore
  import opened Metric

  /** A word together with its score against the query. */
  type Scored = (string, real)

  /** The metric name that selects cosine similarity; every other name selects the
      negated Euclidean distance. */
  const CosineMetric: string := "cosine"

  /** The score of one stored vector: the cosine similarity, or the Euclidean
      distance negated so that a higher score always means a closer vector. */
  function Score(norm: Norm, query: Vector, v: Vector, metric: string): (r: Result<real, MetricError>)
    ensures metric != CosineMetric && r.Ok? ==> r.value <= 0.0
    ensures metric != CosineMetric && |query| == |v| ==> (r == Ok(0.0) <==> v == query)
    ensures metric == CosineMetric && IsZero(query) ==> r == Ok(0.0)
    ensures r.Err? <==> if metric == CosineMetric then CosineSimilarity(norm, query, v).Err?
                        else EuclideanDistance(norm, query, v).Err?
  {
    if metric == CosineMetric then CosineSimilarity(norm, query, v)
    else match EuclideanDistance(norm, query, v)
      case Err(e) => Err(e)
      case Ok(d) => Ok(-d)
  }

  /** Scoring some stored vector fails. */
  predicate SomeScoreFails(norm: Norm, query: Vector, store: Store, metric: string) {
    exists i :: 0 <= i < |store| && Score(norm, query, store[i].1, metric).Err?
  }

  /** The loop over `vectors.items()`: one scored entry per stored entry, in store
      order; the first failing score aborts the whole call. */
  function ScoreAll(norm: Norm, query: Vector, store: Store, metric: string): (r: Result<seq<Scored>, MetricError>)
    ensures r.Err? <==> SomeScoreFails(norm, query, store, metric)
    ensures r.Ok? ==> |r.value| == |store|
    ensures r.Ok? ==> forall i :: 0 <= i < |store| ==>
      r.value[i].0 == store[i].0 && Score(norm, query, store[i].1, metric) == Ok(r.value[i].1)
    decreases |store|
  {
    if store == [] then Ok([])
    else
      assert SomeScoreFails(norm, query, store[1..], metric) ==> SomeScoreFails(norm, query, store, metric) by {
        if SomeScoreFails(norm, query, store[1..], metric) {
          var i :| 0 <= i < |store[1..]| && Score(norm, query, store[1..][i].1, metric).Err?;
          assert store[i + 1] == store[1..][i];
        }
      }
      match Score(norm, query, store[0].1, metric)
      case Err(e) => Err(e)
      case Ok(x) =>
        match ScoreAll(norm, query, store[1..], metric)
        case Err(e) => Err(e)
        case Ok(rest) =>
          assert !SomeScoreFails(norm, query, store, metric) by {
            forall i | 0 <= i < |store| ensures Score(norm, query, store[i].1, metric).Ok? {
              if i > 0 {
                assert store[i] == store[1..][i - 1];
              }
            }
          }
          Ok([(store[0].0, x)] + rest)
  }

  /** Scores never increase along the sequence. */
  predicate SortedDesc(s: seq<Scored>) {
    forall i, j :: 0 <= i < j < |s| ==> s[i].1 >= s[j].1
  }

  /** Places `x` after every entry scoring at least as high, so that among equal
      scores the later-inserted entry comes last. */
  function Insert(x: Scored, t: seq<Scored>): (r: seq<Scored>)
    ensures |r| == |t| + 1
  {
    if t == [] then [x]
    else if t[0].1 >= x.1 then [t[0]] + Insert(x, t[1..])
    else [x] + t
  }

  /** Inserting adds exactly the one entry. */
  lemma {:induction false} InsertPermutes(x: Scored, t: seq<Scored>)
    ensures multiset(Insert(x, t)) == multiset(t) + multiset{x}
    decreases |t|
  {
    if t != [] && t[0].1 >= x.1 {
      assert t == [t[0]] + t[1..];
      InsertPermutes(x, t[1..]);
    }
  }

  /** Every entry of `t` scores at most `c`. */
  predicate AllAtMost(t: seq<Scored>, c: real) {
    forall i :: 0 <= i < |t| ==> t[i].1 <= c
  }

  /** A bound on every entry of a sorted sequence and a new entry bounds the result
      of inserting it. */
  lemma InsertAtMost(x: Scored, t: seq<Scored>, c: real)
    requires AllAtMost(t, c) && x.1 <= c
    ensures AllAtMost(Insert(x, t), c)
  {
    var r := Insert(x, t);
    InsertPermutes(x, t);
    forall i | 0 <= i < |r| ensures r[i].1 <= c {
      assert r[i] in multiset(r);
      if r[i] != x {
        assert r[i] in multiset(t);
      }
    }
  }

  /** Inserting into a sorted sequence keeps it sorted. */
  lemma {:induction false} InsertSorted(x: Scored, t: seq<Scored>)
    requires SortedDesc(t)
    ensures SortedDesc(Insert(x, t))
    decreases |t|
  {
    if t != [] {
      if t[0].1 >= x.1 {
        var rest := Insert(x, t[1..]);
        InsertSorted(x, t[1..]);
        assert AllAtMost(t[1..], t[0].1);
        InsertAtMost(x, t[1..], t[0].1);
        var r := [t[0]] + rest;
        forall i, j | 0 <= i < j < |r| ensures r[i].1 >= r[j].1 {
          assert r[j] == rest[j - 1];
          if i > 0 {
            assert r[i] == rest[i - 1];
          }
        }
      } else {
        var r := [x] + t;
        forall i, j | 0 <= i < j < |r| ensures r[i].1 >= r[j].1 {
          assert r[j] == t[j - 1];
          if i > 0 {
            assert r[i] == t[i - 1];
          }
        }
      }
    }
  }

  /** Python's `list.sort(key=score, reverse=True)`, as insertion sort: the last
      entry is inserted into the sorted prefix. */
  function SortDesc(s: seq<Scored>): (r: seq<Scored>)
    ensures |r| == |s|
    decreases |s|
  {
    if s == [] then []
    else Insert(s[|s| - 1], SortDesc(s[..|s| - 1]))
  }

  /** The sort rearranges its input without adding or losing entries. */
  lemma {:induction false} SortDescPermutes(s: seq<Scored>)
    ensures multiset(SortDesc(s)) == multiset(s)
    decreases |s|
  {
    if s != [] {
      assert s == s[..|s| - 1] + [s[|s| - 1]];
      SortDescPermutes(s[..|s| - 1]);
      InsertPermutes(s[|s| - 1], SortDesc(s[..|s| - 1]));
    }
  }

  /** The sort's result is in descending order of score. */
  lemma {:induction false} SortDescSorted(s: seq<Scored>)
    ensures SortedDesc(SortDesc(s))
    decreases |s|
  {
    if s != [] {
      SortDescSorted(s[..|s| - 1]);
      InsertSorted(s[|s| - 1], SortDesc(s[..|s| - 1]));
    }
  }

  /** The entry carries score `c`. */
  function HasScore(c: real): Scored -> bool {
    (x: Scored) => x.1 == c
  }

  /** No entry carrying score `c` means nothing survives filtering for it. */
  lemma FilterNone(c: real, t: seq<Scored>)
    requires forall y :: y in t ==> y.1 != c
    ensures Filter(HasScore(c), t) == []
  {
  }

  /** An entry scoring above every entry of `t`, put in front, comes after them in
      every score's filtered order (it is alone in its own). */
  lemma FrontStable(c: real, x: Scored, t: seq<Scored>)
    requires forall y :: y in t ==> y.1 < x.1
    ensures Filter(HasScore(c), [x] + t) == Filter(HasScore(c), t) + Filter(HasScore(c), [x])
  {
    FilterConcat(HasScore(c), [x], t);
    if c == x.1 {
      FilterNone(c, t);
    } else {
      FilterNone(c, [x]);
    }
  }

  /** Inserting into a sorted sequence keeps the entries of each score in their
      order and puts the inserted one after them. */
  lemma {:induction false} InsertStable(c: real, x: Scored, t: seq<Scored>)
    requires SortedDesc(t)
    ensures Filter(HasScore(c), Insert(x, t)) == Filter(HasScore(c), t) + Filter(HasScore(c), [x])
    decreases |t|
  {
    var p := HasScore(c);
    if t == [] {
    } else if t[0].1 >= x.1 {
      var rest := t[1..];
      var ins := Insert(x, rest);
      assert SortedDesc(rest);
      InsertStable(c, x, rest);
      assert Insert(x, t) == [t[0]] + ins;
      assert ([t[0]] + ins)[1..] == ins;
    } else {
      forall y | y in t ensures y.1 < x.1 {
        var j :| 0 <= j < |t| && t[j] == y;
      }
      FrontStable(c, x, t);
    }
  }

  /** The sort is stable: for every score, the entries carrying it appear in the
      sorted result in the same order as in the input. */
  lemma {:induction false} SortStable(c: real, s: seq<Scored>)
    ensures Filter(HasScore(c), SortDesc(s)) == Filter(HasScore(c), s)
    decreases |s|
  {
    if s != [] {
      var init, last := s[..|s| - 1], s[|s| - 1];
      var p := HasScore(c);
      SortStable(c, init);
      SortDescSorted(init);
      InsertStable(c, last, SortDesc(init));
      assert s == init + [last];
      FilterConcat(p, init, [last]);
      calc {
        Filter(p, SortDesc(s));
        Filter(p, Insert(last, SortDesc(init)));
        Filter(p, SortDesc(init)) + Filter(p, [last]);
        Filter(p, init) + Filter(p, [last]);
        Filter(p, s);
      }
    }
  }

  /** How many entries Python's `s[:n]` keeps of a sequence of length `len`; a
      negative `n` counts from the end. */
  function SliceLength(len: nat, n: int): (k: nat)
    ensures k <= len
    ensures n >= 0 ==> k == if n < len then n else len
    ensures n < 0 ==> k == if len + n > 0 then len + n else 0
  {
    if n >= 0 then (if n < len then n else len)
    else if len + n > 0 then len + n else 0
  }

  /** `find_nearest_neighbors`: the `n` best-scoring words, best first, with ties
      kept in store order. An empty store gives an empty answer whatever the query;
      otherwise any failing score makes the whole call fail. */
  function FindNearestNeighbors(norm: Norm, query: Vector, store: Store, n: int, metric: string)
    : (r: Result<seq<Scored>, MetricError>)
    ensures store == [] ==> r == Ok([])
    ensures r.Err? <==> SomeScoreFails(norm, query, store, metric)
    ensures r.Ok? ==> |r.value| == SliceLength(|store|, n)
    ensures r.Ok? ==> SortedDesc(r.value)
    ensures r.Ok? ==> forall x :: x in r.value ==>
      exists i :: 0 <= i < |store| && x.0 == store[i].0 && Score(norm, query, store[i].1, metric) == Ok(x.1)
  {
    if store == [] then Ok([])
    else match ScoreAll(norm, query, store, metric)
      case Err(e) => Err(e)
      case Ok(scored) =>
        var k := SliceLength(|store|, n);
        SortedPrefix(scored, k);
        ScoredOrigins(norm, query, store, metric, SortDesc(scored)[..k]);
        Ok(SortDesc(scored)[..k])
  }

  /** A prefix of the sorted sequence is sorted and holds only input entries. */
  lemma SortedPrefix(s: seq<Scored>, k: nat)
    requires k <= |s|
    ensures SortedDesc(SortDesc(s)[..k])
    ensures forall x :: x in SortDesc(s)[..k] ==> x in s
  {
    var sorted := SortDesc(s);
    SortDescSorted(s);
    SortDescPermutes(s);
    forall x | x in sorted[..k] ensures x in s {
      assert x in multiset(sorted);
      assert x in multiset(s);
    }
  }

  /** Every entry drawn from the scored store names a stored word with its score. */
  lemma ScoredOrigins(norm: Norm, query: Vector, store: Store, metric: string, t: seq<Scored>)
    requires ScoreAll(norm, query, store, metric).Ok?
    requires forall x :: x in t ==> x in ScoreAll(norm, query, store, metric).value
    ensures forall x :: x in t ==>
      exists i :: 0 <= i < |store| && x.0 == store[i].0 && Score(norm, query, store[i].1, metric) == Ok(x.1)
  {
    var scored := ScoreAll(norm, query, store, metric).value;
    forall x | x in t
      ensures exists i :: 0 <= i < |store| && x.0 == store[i].0 && Score(norm, query, store[i].1, metric) == Ok(x.1)
    {
      var i :| 0 <= i < |scored| && scored[i] == x;
      assert x.0 == store[i].0 && Score(norm, query, store[i].1, metric) == Ok(x.1);
    }
  }

  /** Cutting the sorted sequence at `k` leaves nothing behind that scores higher
      than what is kept. */
  lemma SortedCut(s: seq<Scored>, k: nat, x: Scored, y: Scored)
    requires k <= |s|
    requires y in s && y !in SortDesc(s)[..k]
    requires x in SortDesc(s)[..k]
    ensures x.1 >= y.1
  {
    var sorted := SortDesc(s);
    SortDescSorted(s);
    SortDescPermutes(s);
    assert y in multiset(sorted);
    var i :| 0 <= i < k && sorted[..k][i] == x;
    var j :| 0 <= j < |sorted| && sorted[j] == y;
    assert sorted[i] == x;
  }

  /** The answer lists the best entries: every scored entry left out of it scores
      no higher than any entry kept. */
  lemma NearestAreBest(norm: Norm, query: Vector, store: Store, n: int, metric: string, x: Scored, y: Scored)
    requires store != []
    requires ScoreAll(norm, query, store, metric).Ok?
    requires y in ScoreAll(norm, query, store, metric).value
    requires y !in FindNearestNeighbors(norm, query, store, n, metric).value
    requires x in FindNearestNeighbors(norm, query, store, n, metric).value
    ensures x.1 >= y.1
  {
    SortedCut(ScoreAll(norm, query, store, metric).value, SliceLength(|store|, n), x, y);
  }

  /** Ties are kept in store order: for every score, the entries of the answer that
      carry it are a prefix of the store's entries that carry it. */
  lemma NearestKeepTieOrder(norm: Norm, query: Vector, store: Store, n: int, metric: string, c: real)
    requires store != []
    requires ScoreAll(norm, query, store, metric).Ok?
    ensures Filter(HasScore(c), FindNearestNeighbors(norm, query, store, n, metric).value)
         <= Filter(HasScore(c), ScoreAll(norm, query, store, metric).value)
  {
    var scored := ScoreAll(norm, query, store, metric).value;
    SortStable(c, scored);
    FilterPrefix(HasScore(c), SortDesc(scored), SliceLength(|store|, n));
  }

  /** Distinct words in the store give distinct words in the answer. */
  lemma NearestDistinct(norm: Norm, query: Vector, store: Store, n: int, metric: string)
    requires DistinctKeys(store)
    requires FindNearestNeighbors(norm, query, store, n, metric).Ok?
    ensures DistinctKeys(FindNearestNeighbors(norm, query, store, n, metric).value)
  {
    if store != [] {
      var scored := ScoreAll(norm, query, store, metric).value;
      var sorted := SortDesc(scored);
      var k := SliceLength(|store|, n);
      assert DistinctKeys(scored) by {
        forall i, j | 0 <= i < j < |scored| ensures scored[i].0 != scored[j].0 {
          assert scored[i].0 == store[i].0 && scored[j].0 == store[j].0;
        }
      }
      SortDescPermutes(scored);
      DistinctKeysPermutation(scored, sorted);
    }
  }

  /** A sequence with the same entries as one with distinct keys has distinct keys. */
  lemma DistinctKeysPermutation(s: seq<Scored>, t: seq<Scored>)
    requires DistinctKeys(s)
    requires multiset(s) == multiset(t)
    ensures forall k :: 0 <= k <= |t| ==> DistinctKeys(t[..k])
  {
    forall i, j | 0 <= i < j < |t| ensures t[i].0 != t[j].0 {
      if t[i].0 == t[j].0 {
        assert t[i] in multiset(s) && t[j] in multiset(s);
        var a :| 0 <= a < |s| && s[a] == t[i];
        var b :| 0 <= b < |s| && s[b] == t[j];
        if a == b {
          assert t[i] == t[j];
          var m := multiset(t);
          assert t == t[..i] + [t[i]] + t[i + 1..j] + [t[j]] + t[j + 1..];
          assert m[t[i]] >= 2;
          CountOfDistinct(s, a);
        }
      }
    }
  }

  /** In a sequence with distinct keys every entry occurs once. */
  lemma {:induction false} CountOfDistinct(s: seq<Scored>, a: nat)
    requires DistinctKeys(s)
    requires a < |s|
    ensures multiset(s)[s[a]] == 1
    decreases |s|
  {
    assert s == [s[0]] + s[1..];
    if a == 0 {
      assert s[0] !in s[1..];
    } else {
      assert DistinctKeys(s[1..]) by {
        forall i, j | 0 <= i < j < |s[1..]| ensures s[1..][i].0 != s[1..][j].0 {
          assert s[1..][i] == s[i + 1] && s[1..][j] == s[j + 1];
        }
      }
      CountOfDistinct(s[1..], a - 1);
      assert s[1..][a - 1] == s[a];
      assert s[0] != s[a] by {
        assert s[0].0 != s[a].0;
      }
    }
  }

  /** Under the Euclidean metric every returned score is at most zero. */
  lemma EuclideanScoresNonPositive(norm: Norm, query: Vector, store: Store, n: int, metric: string)
    requires metric != CosineMetric
    requires FindNearestNeighbors(norm, query, store, n, metric).Ok?
    ensures forall x :: x in FindNearestNeighbors(norm, query, store, n, metric).value ==> x.1 <= 0.0
  {
  }

  /** When every entry carries the same score the sort changes nothing. */
  lemma SortUniform(s: seq<Scored>, c: real)
    requires forall y :: y in s ==> y.1 == c
    ensures SortDesc(s) == s
  {
    var sorted := SortDesc(s);
    SortDescPermutes(s);
    forall y | y in sorted ensures y.1 == c {
      assert y in multiset(sorted);
      assert y in multiset(s);
    }
    FilterAll(HasScore(c), s);
    FilterAll(HasScore(c), sorted);
    SortStable(c, s);
  }

  /** The first entry carrying the top score heads the sorted sequence. */
  lemma SortedHead(s: seq<Scored>, k: nat, c: real)
    requires k < |s| && s[k].1 == c
    requires forall i :: 0 <= i < |s| ==> s[i].1 <= c
    requires forall j :: 0 <= j < k ==> s[j].1 != c
    ensures SortDesc(s) != [] && SortDesc(s)[0] == s[k]
  {
    var sorted := SortDesc(s);
    var p := HasScore(c);
    SortDescSorted(s);
    SortDescPermutes(s);
    FilterHead(p, s, k);
    assert s[k] in multiset(sorted);
    var m :| 0 <= m < |sorted| && sorted[m] == s[k];
    assert sorted[0] in multiset(s);
    var m0 :| 0 <= m0 < |s| && s[m0] == sorted[0];
    assert sorted[0].1 == c;
    FilterHead(p, sorted, 0);
    SortStable(c, s);
  }

  /** A zero query under the cosine metric scores every word 0.0, so the answer is
      the first `n` words in store order. */
  lemma ZeroQueryKeepsStoreOrder(norm: Norm, query: Vector, store: Store, n: int)
    requires IsZero(query)
    ensures FindNearestNeighbors(norm, query, store, n, CosineMetric).Ok?
    ensures var r := FindNearestNeighbors(norm, query, store, n, CosineMetric).value;
      |r| == SliceLength(|store|, n) && forall i :: 0 <= i < |r| ==> r[i] == (store[i].0, 0.0)
  {
    if store != [] {
      var scored := ScoreAll(norm, query, store, CosineMetric).value;
      forall y | y in scored ensures y.1 == 0.0 {
        var i :| 0 <= i < |scored| && scored[i] == y;
        assert Score(norm, query, store[i].1, CosineMetric) == Ok(y.1);
      }
      SortUniform(scored, 0.0);
      forall i | 0 <= i < |scored| ensures scored[i] == (store[i].0, 0.0) {
        assert scored[i] in scored;
      }
    }
  }

  /** Filtering with a predicate every entry satisfies keeps everything. */
  lemma {:induction false} FilterAll(p: Scored -> bool, s: seq<Scored>)
    requires forall y :: y in s ==> p(y)
    ensures Filter(p, s) == s
    decreases |s|
  {
    if s != [] {
      assert s == [s[0]] + s[1..];
      FilterAll(p, s[1..]);
      FilterConcat(p, [s[0]], s[1..]);
    }
  }

  /** Under the Euclidean metric, with every stored vector as long as the query and
      a slice that keeps at least one entry, the first stored copy of the query
      itself is the best answer, at distance 0. */
  lemma EuclideanExactMatchFirst(norm: Norm, query: Vector, store: Store, n: int, metric: string, k: nat)
    requires metric != CosineMetric
    requires SliceLength(|store|, n) >= 1
    requires k < |store|
    requires forall i :: 0 <= i < |store| ==> |store[i].1| == |query|
    requires store[k].1 == query
    requires forall j :: 0 <= j < k ==> store[j].1 != query
    ensures FindNearestNeighbors(norm, query, store, n, metric).Ok?
    ensures FindNearestNeighbors(norm, query, store, n, metric).value[0] == (store[k].0, 0.0)
  {
    ExactMatchScores(norm, query, store, metric, k);
    SortedHead(ScoreAll(norm, query, store, metric).value, k, 0.0);
  }

  /** The scores behind `EuclideanExactMatchFirst`: all succeed, none is positive,
      the copy of the query scores 0.0 and no earlier entry does. */
  lemma ExactMatchScores(norm: Norm, query: Vector, store: Store, metric: string, k: nat)
    requires metric != CosineMetric
    requires k < |store|
    requires forall i :: 0 <= i < |store| ==> |store[i].1| == |query|
    requires store[k].1 == query
    requires forall j :: 0 <= j < k ==> store[j].1 != query
    ensures ScoreAll(norm, query, store, metric).Ok?
    ensures var sc := ScoreAll(norm, query, store, metric).value;
      sc[k] == (store[k].0, 0.0)
      && (forall i :: 0 <= i < |sc| ==> sc[i].1 <= 0.0)
      && (forall j :: 0 <= j < k ==> sc[j].1 != 0.0)
  {
    assert !SomeScoreFails(norm, query, store, metric) by {
      forall i | 0 <= i < |store| ensures Score(norm, query, store[i].1, metric).Ok? {
        assert |store[i].1| == |query|;
      }
    }
    var sc := ScoreAll(norm, query, store, metric).value;
    forall i | 0 <= i < |sc| ensures sc[i].1 <= 0.0 && (sc[i].1 == 0.0 <==> store[i].1 == query) {
      assert Score(norm, query, store[i].1, metric) == Ok(sc[i].1);
    }
  }
}

=== FILE: processor.dfy ===
/** The text processor: Unicode normalisation, whitespace tokenisation,
    per-language stopword removal and corpus preparation for training. */
module Processor {
  import opened Wrappers
  import opened Seqs
  import opened Whitespace

  /** The Unicode services the processor calls and this model does not define:
      NFKC normalisation (`unicodedata.normalize("NFKC", ·)`) and `str.lower`. */
  datatype Unicode = Unicode(nfkc: string -> string, lower: string -> string)

  /** A Python value handed to the processor where text is expected. */
  datatype PyValue = PyNone | PyStr(text: string) | PyOther

  /** A processor holds one stopword set per language key. */
  datatype TextProcessor = TextProcessor(stopwords: map<string, set<string>>)

  /** `TextProcessor(stopwords)`: a missing (or empty) mapping means no language has stopwords. */
  function NewTextProcessor(stopwords: Option<map<string, set<string>>>): (p: TextProcessor)
    ensures stopwords.None? ==> p.stopwords == map[]
    ensures stopwords.Some? ==> p.stopwords == stopwords.value
  {
    match stopwords
    case None => TextProcessor(map[])
    case Some(m) => TextProcessor(m)
  }

  /** `s` is left alone by NFKC and by lowercasing. */
  predicate Fixes(u: Unicode, s: string) {
    u.nfkc(s) == s && u.lower(s) == s
  }

  /** `normalize_text`: NFKC, lowercase, collapse whitespace runs to one space, strip.
      `None`, the empty string and non-strings give the empty string. */
  function NormalizeText(u: Unicode, text: PyValue): (r: string)
    ensures WellSpaced(r)
    ensures text.PyStr? && text.text != [] ==> r == JoinSpace(Split(u.lower(u.nfkc(text.text))))
    ensures !text.PyStr? || text.text == [] ==> r == []
  {
    if text.PyStr? && text.text != [] then
      var s := u.lower(u.nfkc(text.text));
      CollapseStripIsJoinSplit(s);
      SplitYieldsWords(s);
      JoinSpaceWellSpaced(Split(s));
      Strip(Collapse(s))
    else
      []
  }

  /** The per-language segmentation hook of `tokenize`: the Kikuyu branch exists
      but, like every other language, keeps the whitespace tokens. */
  function Segment(language: string, tokens: seq<string>): (r: seq<string>)
    ensures r == tokens
  {
    if language == "kikuyu" then tokens else tokens
  }

  /** `tokenize`: normalise, then split on whitespace. */
  function Tokenize(u: Unicode, text: PyValue, language: string): (tokens: seq<string>)
    ensures AllWords(tokens)
    ensures JoinSpace(tokens) == NormalizeText(u, text)
    ensures text.PyStr? && text.text != [] ==> tokens == Split(u.lower(u.nfkc(text.text)))
    ensures !text.PyStr? || text.text == [] ==> tokens == []
  {
    var normalized := NormalizeText(u, text);
    SplitNormalized(u, text);
    Segment(language, Split(normalized))
  }

  /** The normalised text splits back into the words it was joined from. */
  lemma SplitNormalized(u: Unicode, text: PyValue)
    ensures AllWords(Split(NormalizeText(u, text)))
    ensures JoinSpace(Split(NormalizeText(u, text))) == NormalizeText(u, text)
    ensures text.PyStr? && text.text != [] ==>
      Split(NormalizeText(u, text)) == Split(u.lower(u.nfkc(text.text)))
  {
    if text.PyStr? && text.text != [] {
      SplitYieldsWords(u.lower(u.nfkc(text.text)));
      SplitJoinSpace(Split(u.lower(u.nfkc(text.text))));
    }
    SplitYieldsWords(NormalizeText(u, text));
  }

  /** The language argument of `tokenize` has no effect. */
  lemma TokenizeIgnoresLanguage(u: Unicode, text: PyValue, l1: string, l2: string)
    ensures Tokenize(u, text, l1) == Tokenize(u, text, l2)
  {
  }

  /** `remove_stopwords`: drop the tokens in the language's stopword set, keeping
      the order and the duplicates of the rest; an unregistered language passes through. */
  function RemoveStopwords(p: TextProcessor, tokens: seq<string>, language: string): (r: seq<string>)
    ensures language !in p.stopwords ==> r == tokens
    ensures language in p.stopwords ==> forall t :: t in r ==> t !in p.stopwords[language]
    ensures language in p.stopwords ==> Subsequence(r, tokens)
    ensures language in p.stopwords ==>
      forall t :: t !in p.stopwords[language] ==> multiset(r)[t] == multiset(tokens)[t]
    ensures forall t :: t in r ==> t in tokens
  {
    if language in p.stopwords then
      var stop := p.stopwords[language];
      var keep := (t: string) => t !in stop;
      FilterSubsequence(keep, tokens);
      FilterCounts(keep, tokens);
      Filter(keep, tokens)
    else
      tokens
  }

  /** Filtering a list of words leaves a list of words. */
  lemma KeptWords(kept: seq<string>, tokens: seq<string>)
    requires AllWords(tokens)
    requires forall t :: t in kept ==> t in tokens
    ensures AllWords(kept)
  {
    forall i | 0 <= i < |kept|
      ensures IsWord(kept[i])
    {
      assert kept[i] in tokens;
    }
  }

  /** One text's contribution to `prepare_for_fasttext`, before empty results are dropped. */
  function ProcessText(u: Unicode, p: TextProcessor, text: PyValue, language: string,
                       removeStopwords: bool): (r: string)
    ensures WellSpaced(r)
    ensures var tokens := Tokenize(u, PyStr(NormalizeText(u, text)), language);
      Split(r) == if removeStopwords then RemoveStopwords(p, tokens, language) else tokens
    ensures removeStopwords && language in p.stopwords ==>
      forall tok :: tok in Split(r) ==> tok !in p.stopwords[language]
  {
    var normalized := NormalizeText(u, text);
    var tokens := Tokenize(u, PyStr(normalized), language);
    var kept := if removeStopwords then RemoveStopwords(p, tokens, language) else tokens;
    KeptWords(kept, tokens);
    JoinSpaceWellSpaced(kept);
    SplitJoinSpace(kept);
    JoinSpace(kept)
  }

  /** Every text's contribution, in input order. */
  function ProcessEach(u: Unicode, p: TextProcessor, texts: seq<PyValue>, language: string,
                       removeStopwords: bool): (r: seq<string>)
    ensures |r| == |texts|
    ensures forall i :: 0 <= i < |texts| ==> r[i] == ProcessText(u, p, texts[i], language, removeStopwords)
  {
    seq(|texts|, i requires 0 <= i < |texts| => ProcessText(u, p, texts[i], language, removeStopwords))
  }

  /** Python truthiness of a string. */
  predicate NonEmpty(s: string) {
    s != []
  }

  /** `prepare_for_fasttext`: process each text and keep the non-empty results in order. */
  function PrepareForFastText(u: Unicode, p: TextProcessor, texts: seq<PyValue>, language: string,
                              removeStopwords: bool): (r: seq<string>)
    ensures |r| <= |texts|
    ensures forall o :: o in r ==> o != [] && WellSpaced(o)
    ensures Subsequence(r, ProcessEach(u, p, texts, language, removeStopwords))
    ensures forall o :: o != [] ==>
      multiset(r)[o] == multiset(ProcessEach(u, p, texts, language, removeStopwords))[o]
    ensures removeStopwords && language in p.stopwords ==>
      forall o, tok :: o in r && tok in Split(o) ==> tok !in p.stopwords[language]
  {
    var each := ProcessEach(u, p, texts, language, removeStopwords);
    FilterSubsequence(NonEmpty, each);
    FilterCounts(NonEmpty, each);
    ProcessedFacts(u, p, texts, language, removeStopwords, Filter(NonEmpty, each));
    Filter(NonEmpty, each)
  }

  /** Whatever is drawn from the processed texts is well spaced and, when stopwords
      are removed, free of them. */
  lemma ProcessedFacts(u: Unicode, p: TextProcessor, texts: seq<PyValue>, language: string,
                       removeStopwords: bool, drawn: seq<string>)
    requires forall o :: o in drawn ==> o in ProcessEach(u, p, texts, language, removeStopwords)
    ensures forall o :: o in drawn ==> WellSpaced(o)
    ensures removeStopwords && language in p.stopwords ==>
      forall o, tok :: o in drawn && tok in Split(o) ==> tok !in p.stopwords[language]
  {
    var each := ProcessEach(u, p, texts, language, removeStopwords);
    forall o | o in drawn
      ensures WellSpaced(o)
      ensures removeStopwords && language in p.stopwords ==>
        forall tok :: tok in Split(o) ==> tok !in p.stopwords[language]
    {
      var i :| 0 <= i < |each| && each[i] == o;
      assert o == ProcessText(u, p, texts[i], language, removeStopwords);
    }
  }

  /** Normalising text that NFKC and lowercasing leave alone changes nothing:
      `normalize_text` is idempotent wherever the Unicode services are. */
  lemma NormalizeIdempotent(u: Unicode, text: PyValue)
    requires Fixes(u, NormalizeText(u, text))
    ensures NormalizeText(u, PyStr(NormalizeText(u, text))) == NormalizeText(u, text)
  {
    var n := NormalizeText(u, text);
    if n != [] {
      var ws := Split(u.lower(u.nfkc(text.text)));
      SplitYieldsWords(u.lower(u.nfkc(text.text)));
      SplitJoinSpace(ws);
      assert Split(n) == ws;
    }
  }

  /** `normalize_text` applied to every text, in order. */
  function NormalizeEach(u: Unicode, texts: seq<PyValue>): (r: seq<string>)
    ensures |r| == |texts|
    ensures forall i :: 0 <= i < |texts| ==> r[i] == NormalizeText(u, texts[i])
  {
    seq(|texts|, i requires 0 <= i < |texts| => NormalizeText(u, texts[i]))
  }

  /** Without stopword removal, corpus preparation is `normalize_text` of each
      text with the empty results dropped, whenever NFKC and lowercasing leave
      the normalised texts alone (`prepare_for_fasttext` normalises twice). */
  lemma PrepareWithoutStopwords(u: Unicode, p: TextProcessor, texts: seq<PyValue>, language: string)
    requires forall i :: 0 <= i < |texts| ==> Fixes(u, NormalizeText(u, texts[i]))
    ensures PrepareForFastText(u, p, texts, language, false) == Filter(NonEmpty, NormalizeEach(u, texts))
  {
    var each := ProcessEach(u, p, texts, language, false);
    var norm := NormalizeEach(u, texts);
    forall i | 0 <= i < |texts|
      ensures each[i] == norm[i]
    {
      NormalizeIdempotent(u, texts[i]);
      var n := NormalizeText(u, texts[i]);
      var tokens := Tokenize(u, PyStr(n), language);
      assert JoinSpace(tokens) == n;
    }
    assert each == norm;
  }
}

=== FILE: seqs.dfy ===
/** Order-preserving filtering and subsequences: the list comprehension of
    `remove_stopwords` and the blank-line test of `preprocess_data` keep some
    elements of a list and drop the others, and the stability of `list.sort` is
    stated by filtering on one score. */
module Seqs {

  /** `a` can be obtained from `b` by deleting elements, without reordering. */
  ghost predicate Subsequence<T>(a: seq<T>, b: seq<T>)
    decreases |b|
  {
    if a == [] then true
    else if b == [] then false
    else (a[0] == b[0] && Subsequence(a[1..], b[1..])) || Subsequence(a, b[1..])
  }

  /** The elements of `s` that satisfy `p`, in order (Python's list comprehension
      `[x for x in s if p(x)]`). */
  function Filter<T(!new)>(p: T -> bool, s: seq<T>): (r: seq<T>)
    ensures |r| <= |s|
    ensures forall x :: x in r ==> x in s && p(x)
  {
    if s == [] then []
    else
      assert s == [s[0]] + s[1..];
      var rest := Filter(p, s[1..]);
      if p(s[0]) then [s[0]] + rest else rest
  }

  /** Filtering keeps every occurrence of an element satisfying `p` and none of
      the others. */
  lemma {:induction false} FilterCounts<T(!new)>(p: T -> bool, s: seq<T>)
    ensures forall x :: multiset(Filter(p, s))[x] == if p(x) then multiset(s)[x] else 0
    decreases |s|
  {
    if s != [] {
      assert s == [s[0]] + s[1..];
      FilterCounts(p, s[1..]);
    }
  }

  /** Filtering only deletes elements; it never reorders them. */
  lemma {:induction false} FilterSubsequence<T(!new)>(p: T -> bool, s: seq<T>)
    ensures Subsequence(Filter(p, s), s)
    decreases |s|
  {
    if s != [] {
      FilterSubsequence(p, s[1..]);
      var rest := Filter(p, s[1..]);
      if !p(s[0]) && rest != [] {
        assert Subsequence(rest, s[1..]);
      }
    }
  }

  /** Filtering distributes over concatenation. */
  lemma {:induction false} FilterConcat<T(!new)>(p: T -> bool, a: seq<T>, b: seq<T>)
    ensures Filter(p, a + b) == Filter(p, a) + Filter(p, b)
    decreases |a|
  {
    if a == [] {
      assert a + b == b;
    } else {
      assert (a + b)[1..] == a[1..] + b;
      FilterConcat(p, a[1..], b);
    }
  }

  /** Filtering a prefix yields a prefix of the filtered whole. */
  lemma {:induction false} FilterPrefix<T(!new)>(p: T -> bool, s: seq<T>, k: nat)
    requires k <= |s|
    ensures Filter(p, s[..k]) <= Filter(p, s)
    decreases k
  {
    if k > 0 {
      FilterPrefix(p, s[1..], k - 1);
      assert s[..k][1..] == s[1..][..k - 1];
      assert s[..k][0] == s[0];
    }
  }

  /** If `s[k]` is the first element satisfying `p`, it heads the filtered sequence. */
  lemma {:induction false} FilterHead<T(!new)>(p: T -> bool, s: seq<T>, k: nat)
    requires k < |s| && p(s[k])
    requires forall j :: 0 <= j < k ==> !p(s[j])
    ensures Filter(p, s) != [] && Filter(p, s)[0] == s[k]
    decreases k
  {
    if k > 0 {
      FilterHead(p, s[1..], k - 1);
    }
  }
}

=== FILE: trainer.dfy ===
/** The bookkeeping of `FastTextTrainer` around the fastText library: the default
    configuration, its mapping onto fastText's parameter names, the training-data
    cleaner, and the per-language model cache backed by `<language>.bin` files.
    The fastText model itself is an opaque value of type `M`. */
module Trainer {
  import opened Wrappers
  import opened Seqs
  import opened Whitespace
  import opened Processor
  import opened VectorStore

  /** `EmbeddingConfig`. */
  datatype EmbeddingConfig = EmbeddingConfig(
    dim: int, minCount: int, epoch: int, learningRate: real, wordNgrams: int,
    minN: int, maxN: int, bucket: int, thread: int, loss: string)

  /** `EmbeddingConfig()` with every field at its declared default. */
  const DefaultConfig: EmbeddingConfig :=
    EmbeddingConfig(300, 5, 10, 0.05, 2, 3, 6, 2000000, 4, "ns")

  /** A value of the keyword arguments handed to `fasttext.train_unsupervised`. */
  datatype ParamValue = IntParam(i: int) | RealParam(r: real) | StrParam(s: string)

  /** The fastText parameter names `train_model` passes. */
  const ParamNames: set<string> :=
    {"input", "dim", "minCount", "epoch", "lr", "wordNgrams", "minn", "maxn", "bucket", "thread", "loss"}

  /** The `params` dictionary of `train_model`: the data file and each config field
      under its fastText name. */
  function TrainingParams(input: string, c: EmbeddingConfig): (m: map<string, ParamValue>)
    ensures m.Keys == ParamNames
  {
    map["input" := StrParam(input), "dim" := IntParam(c.dim), "minCount" := IntParam(c.minCount),
        "epoch" := IntParam(c.epoch), "lr" := RealParam(c.learningRate),
        "wordNgrams" := IntParam(c.wordNgrams), "minn" := IntParam(c.minN), "maxn" := IntParam(c.maxN),
        "bucket" := IntParam(c.bucket), "thread" := IntParam(c.thread), "loss" := StrParam(c.loss)]
  }

  /** Reads an integer parameter. */
  function IntOf(m: map<string, ParamValue>, k: string): Option<int> {
    if k in m && m[k].IntParam? then Some(m[k].i) else None
  }

  /** Reads the configuration back out of a parameter dictionary, as fastText sees it. */
  function ConfigOf(m: map<string, ParamValue>): Option<EmbeddingConfig> {
    if IntOf(m, "dim").Some? && IntOf(m, "minCount").Some? && IntOf(m, "epoch").Some?
       && "lr" in m && m["lr"].RealParam? && IntOf(m, "wordNgrams").Some?
       && IntOf(m, "minn").Some? && IntOf(m, "maxn").Some? && IntOf(m, "bucket").Some?
       && IntOf(m, "thread").Some? && "loss" in m && m["loss"].StrParam?
    then Some(EmbeddingConfig(IntOf(m, "dim").value, IntOf(m, "minCount").value, IntOf(m, "epoch").value,
                              m["lr"].r, IntOf(m, "wordNgrams").value, IntOf(m, "minn").value,
                              IntOf(m, "maxn").value, IntOf(m, "bucket").value, IntOf(m, "thread").value,
                              m["loss"].s))
    else None
  }

  /** Every config field reaches fastText unchanged under its own name, and the
      input is the data file. */
  lemma ParamsCarryConfig(input: string, c: EmbeddingConfig)
    ensures ConfigOf(TrainingParams(input, c)) == Some(c)
    ensures TrainingParams(input, c)["input"] == StrParam(input)
  {
  }

  /** The configuration `train_model` uses: the given one, or the defaults. */
  function EffectiveConfig(config: Option<EmbeddingConfig>): (c: EmbeddingConfig)
    ensures config.Some? ==> c == config.value
    ensures config.None? ==>
      (c.dim == 300 && c.minCount == 5 && c.epoch == 10 && c.learningRate == 0.05 && c.wordNgrams == 2
       && c.minN == 3 && c.maxN == 6 && c.bucket == 2000000 && c.thread == 4 && c.loss == "ns")
  {
    if config.None? then DefaultConfig else config.value
  }

  /** `' '.join(sentence.lower().split())`: lowercased and single-spaced, without NFKC. */
  function CleanLine(u: Unicode, sentence: string): (r: string)
    ensures WellSpaced(r)
    ensures Split(r) == Split(u.lower(sentence))
  {
    SplitYieldsWords(u.lower(sentence));
    JoinSpaceWellSpaced(Split(u.lower(sentence)));
    SplitJoinSpace(Split(u.lower(sentence)));
    JoinSpace(Split(u.lower(sentence)))
  }

  /** Every sentence cleaned, in input order. */
  function CleanEach(u: Unicode, data: seq<string>): (r: seq<string>)
    ensures |r| == |data|
    ensures forall i :: 0 <= i < |data| ==> r[i] == CleanLine(u, data[i])
  {
    seq(|data|, i requires 0 <= i < |data| => CleanLine(u, data[i]))
  }

  /** `preprocess_data`: the cleaned sentences, in input order, blank ones skipped
      (the lines of the temporary training file). */
  function PreprocessData(u: Unicode, data: seq<string>): (lines: seq<string>)
    ensures |lines| <= |data|
    ensures forall l :: l in lines ==> l != [] && WellSpaced(l)
  {
    Filter(NonEmpty, CleanEach(u, data))
  }

  /** The training lines are the cleaned sentences in input order, each non-blank
      one kept as often as it occurs and the blank ones dropped. */
  lemma PreprocessKeepsOrder(u: Unicode, data: seq<string>)
    ensures Subsequence(PreprocessData(u, data), CleanEach(u, data))
    ensures forall l :: l != [] ==> multiset(PreprocessData(u, data))[l] == multiset(CleanEach(u, data))[l]
    ensures multiset(PreprocessData(u, data))[[]] == 0
  {
    FilterSubsequence(NonEmpty, CleanEach(u, data));
    FilterCounts(NonEmpty, CleanEach(u, data));
  }

  /** Training-data cleaning is `normalize_text` minus NFKC: the two agree on every
      non-empty text NFKC leaves alone. */
  lemma CleanLineIsNormalizeWithoutNfkc(u: Unicode, s: string)
    requires s != [] && u.nfkc(s) == s
    ensures CleanLine(u, s) == NormalizeText(u, PyStr(s))
  {
  }

  /** Cleaning is idempotent wherever lowercasing leaves the cleaned line alone. */
  lemma CleanLineIdempotent(u: Unicode, s: string)
    requires u.lower(CleanLine(u, s)) == CleanLine(u, s)
    ensures CleanLine(u, CleanLine(u, s)) == CleanLine(u, s)
  {
  }

  /** The trainer: the in-memory cache `self.models` and the model files present
      in the model directory, by file name. */
  datatype FastTextTrainer<M> = FastTextTrainer(models: map<string, M>, disk: map<string, M>)

  /** `FastTextTrainer(model_directory)` over a directory holding `disk`: the cache starts empty. */
  function NewTrainer<M>(disk: map<string, M>): (t: FastTextTrainer<M>)
    ensures t.models == map[] && t.disk == disk
  {
    FastTextTrainer(map[], disk)
  }

  /** `<language>.bin`, the file a language's model is saved to and loaded from. */
  function ModelFile(language: string): (f: string)
    ensures language <= f && f[|language|..] == ".bin"
  {
    language + ".bin"
  }

  /** `<language>_temp.txt`, the training-data file. */
  function TempFile(language: string): (f: string)
    ensures language <= f && f[|language|..] == "_temp.txt"
  {
    language + "_temp.txt"
  }

  /** A training-data file never has the name of a model file, so deleting it
      cannot remove a saved model. */
  lemma TempFileNeverModelFile(a: string, b: string)
    ensures TempFile(a) != ModelFile(b)
  {
    var t, m := TempFile(a), ModelFile(b);
    assert t[|t| - 1] == 't' && m[|m| - 1] == 'n';
  }

  /** A language key that the model directory path joins as one plain file name:
      it holds no path separator, so pathlib neither splits nor normalises it. */
  predicate PlainName(language: string) {
    '/' !in language
  }

  /** Distinct languages with plain names have distinct model files. */
  lemma ModelFileInjective(a: string, b: string)
    requires PlainName(a) && PlainName(b)
    ensures ModelFile(a) == ModelFile(b) <==> a == b
  {
    if ModelFile(a) == ModelFile(b) {
      assert a == ModelFile(a)[..|a|] && b == ModelFile(b)[..|b|];
    }
  }

  /** `load_model`: the cached model if there is one, else the saved model (which
      is then cached), else `None` with the cache untouched. */
  function LoadModel<M>(t: FastTextTrainer<M>, language: string): (r: (FastTextTrainer<M>, Option<M>))
    ensures language in t.models ==> r == (t, Some(t.models[language]))
    ensures language !in t.models && ModelFile(language) in t.disk ==>
      r.1 == Some(t.disk[ModelFile(language)]) && r.0 == t.(models := t.models[language := t.disk[ModelFile(language)]])
    ensures r.1.None? <==> language !in t.models && ModelFile(language) !in t.disk
    ensures r.1.None? ==> r.0 == t
    ensures r.0.disk == t.disk && t.models.Keys <= r.0.models.Keys
    ensures r.1.Some? ==> language in r.0.models && r.0.models[language] == r.1.value
  {
    if language in t.models then (t, Some(t.models[language]))
    else if ModelFile(language) in t.disk then
      var m := t.disk[ModelFile(language)];
      (t.(models := t.models[language := m]), Some(m))
    else (t, None)
  }

  /** Loading again changes nothing and returns the same model. */
  lemma LoadModelIdempotent<M>(t: FastTextTrainer<M>, language: string)
    ensures var (t1, m1) := LoadModel(t, language); LoadModel(t1, language) == (t1, m1)
  {
  }

  /** Other languages' cache entries are untouched by a load. */
  lemma LoadModelOthersUnchanged<M>(t: FastTextTrainer<M>, language: string, other: string)
    requires other != language
    ensures var t1 := LoadModel(t, language).0;
      (other in t1.models <==> other in t.models) && (other in t.models ==> t1.models[other] == t.models[other])
  {
  }

  /** `train_model`: train on the cleaned data with the effective configuration,
      save the model to `<language>.bin` when asked, and cache it under the
      language, replacing any previous model. `fit` stands for
      `fasttext.train_unsupervised` reading the training file. */
  function TrainModel<M>(t: FastTextTrainer<M>, fit: (map<string, ParamValue>, seq<string>) -> M,
                         u: Unicode, language: string, data: seq<string>,
                         config: Option<EmbeddingConfig>, saveModel: bool): (r: (FastTextTrainer<M>, M))
    ensures r.1 == fit(TrainingParams(TempFile(language), EffectiveConfig(config)), PreprocessData(u, data))
    ensures r.0.models == t.models[language := r.1]
    ensures saveModel ==> r.0.disk == t.disk[ModelFile(language) := r.1]
    ensures !saveModel ==> r.0.disk == t.disk
  {
    var params := TrainingParams(TempFile(language), EffectiveConfig(config));
    var model := fit(params, PreprocessData(u, data));
    var saved := if saveModel then t.disk[ModelFile(language) := model] else t.disk;
    (FastTextTrainer(t.models[language := model], saved), model)
  }

  /** After training, loading the language returns the new model without touching state. */
  lemma TrainThenLoad<M>(t: FastTextTrainer<M>, fit: (map<string, ParamValue>, seq<string>) -> M,
                         u: Unicode, language: string, data: seq<string>,
                         config: Option<EmbeddingConfig>, saveModel: bool)
    ensures var (t1, m) := TrainModel(t, fit, u, language, data, config, saveModel);
      LoadModel(t1, language) == (t1, Some(m))
  {
  }

  /** A saved model outlives the trainer: a new trainer over the same directory
      loads it. */
  lemma SavedModelSurvivesRestart<M>(t: FastTextTrainer<M>, fit: (map<string, ParamValue>, seq<string>) -> M,
                                     u: Unicode, language: string, data: seq<string>,
                                     config: Option<EmbeddingConfig>)
    ensures var (t1, m) := TrainModel(t, fit, u, language, data, config, true);
      LoadModel(NewTrainer(t1.disk), language).1 == Some(m)
  {
  }

  /** An unsaved model lives only in the cache: a new trainer over the same
      directory finds whatever was saved before (a stale model, or nothing). */
  lemma UnsavedModelIsForgotten<M>(t: FastTextTrainer<M>, fit: (map<string, ParamValue>, seq<string>) -> M,
                                   u: Unicode, language: string, data: seq<string>,
                                   config: Option<EmbeddingConfig>)
    ensures var (t1, m) := TrainModel(t, fit, u, language, data, config, false);
      LoadModel(t1, language).1 == Some(m)
      && LoadModel(NewTrainer(t1.disk), language).1
         == (if ModelFile(language) in t.disk then Some(t.disk[ModelFile(language)]) else None)
  {
  }

  /** `get_word_vector` (and, with the sentence embedding, `get_sentence_vector`):
      `None` exactly when `load_model` finds no model, otherwise the model's answer.
      Like `load_model`, it may fill the cache. */
  function QueryModel<M, A>(t: FastTextTrainer<M>, language: string, ask: M -> A): (r: (FastTextTrainer<M>, Option<A>))
    ensures r.0 == LoadModel(t, language).0
    ensures r.1.None? <==> LoadModel(t, language).1.None?
    ensures r.1.Some? ==> r.1.value == ask(LoadModel(t, language).1.value)
  {
    var (t1, m) := LoadModel(t, language);
    match m
    case None => (t1, None)
    case Some(model) => (t1, Some(ask(model)))
  }

  /** `get_word_vector`. */
  function GetWordVector<M>(t: FastTextTrainer<M>, language: string, word: string,
                            wordVector: (M, string) -> Vector): (r: (FastTextTrainer<M>, Option<Vector>))
    ensures r.1.None? <==> language !in t.models && ModelFile(language) !in t.disk
    ensures r.1.Some? ==> language in r.0.models && r.1.value == wordVector(r.0.models[language], word)
    ensures r.0 == LoadModel(t, language).0
  {
    QueryModel(t, language, (m: M) => wordVector(m, word))
  }

  /** `get_sentence_vector`. */
  function GetSentenceVector<M>(t: FastTextTrainer<M>, language: string, sentence: string,
                                sentenceVector: (M, string) -> Vector): (r: (FastTextTrainer<M>, Option<Vector>))
    ensures r.1.None? <==> language !in t.models && ModelFile(language) !in t.disk
    ensures r.1.Some? ==> language in r.0.models && r.1.value == sentenceVector(r.0.models[language], sentence)
    ensures r.0 == LoadModel(t, language).0
  {
    QueryModel(t, language, (m: M) => sentenceVector(m, sentence))
  }
}

=== FILE: vector_store.dfy ===
/** The vector store: Python's insertion-ordered `Dict[str, np.ndarray]`,
    modelled as a sequence of (word, vector) pairs. */
module VectorStore {
  import opened Wrappers

  /** A one-dimensional numpy array of floats; floats are modelled as reals. */
  type Vector = seq<real>

  /** A dictionary's items in insertion order. */
  type Store = seq<(string, Vector)>

  /** No key occurs twice, as in every Python dictionary. */
  predicate DistinctKeys<V>(s: seq<(string, V)>) {
    forall i, j :: 0 <= i < j < |s| ==> s[i].0 != s[j].0
  }

  /** The keys in insertion order (`list(d.keys())`). */
  function Keys<V>(s: seq<(string, V)>): (ks: seq<string>)
    ensures |ks| == |s|
    ensures forall i :: 0 <= i < |s| ==> ks[i] == s[i].0
  {
    if s == [] then [] else [s[0].0] + Keys(s[1..])
  }

  /** `d.get(k)`. */
  function Lookup<V>(s: seq<(string, V)>, k: string): (r: Option<V>)
    ensures r.Some? <==> k in Keys(s)
  {
    if s == [] then None
    else if s[0].0 == k then Some(s[0].1)
    else
      var r := Lookup(s[1..], k);
      assert k in Keys(s) <==> k == s[0].0 || k in Keys(s[1..]) by {
        assert Keys(s) == [s[0].0] + Keys(s[1..]);
      }
      r
  }

  /** `d[k] = v`. */
  function Put<V>(s: seq<(string, V)>, k: string, v: V): (r: seq<(string, V)>)
    ensures Lookup(r, k) == Some(v)
    ensures forall k' :: k' != k ==> Lookup(r, k') == Lookup(s, k')
  {
    if s == [] then [(k, v)]
    else if s[0].0 == k then [(k, v)] + s[1..]
    else [s[0]] + Put(s[1..], k, v)
  }

  /** Assignment to an existing key keeps the key order; a new key goes to the end. */
  lemma {:induction false} PutPlacement<V>(s: seq<(string, V)>, k: string, v: V)
    ensures k in Keys(s) ==> Keys(Put(s, k, v)) == Keys(s)
    ensures k !in Keys(s) ==> Put(s, k, v) == s + [(k, v)]
    decreases |s|
  {
    if s != [] {
      assert Keys(s) == [s[0].0] + Keys(s[1..]);
      if s[0].0 != k {
        PutPlacement(s[1..], k, v);
        var rest := Put(s[1..], k, v);
        assert Keys([s[0]] + rest) == [s[0].0] + Keys(rest);
        if k !in Keys(s) {
          assert [s[0]] + (s[1..] + [(k, v)]) == ([s[0]] + s[1..]) + [(k, v)];
          assert s == [s[0]] + s[1..];
        }
      }
    }
  }

  /** Assigning into a dictionary keeps its keys distinct. */
  lemma {:induction false} PutKeepsKeysDistinct<V>(s: seq<(string, V)>, k: string, v: V)
    requires DistinctKeys(s)
    ensures DistinctKeys(Put(s, k, v))
    decreases |s|
  {
    if s != [] && s[0].0 != k {
      var rest := Put(s[1..], k, v);
      PutKeepsKeysDistinct(s[1..], k, v);
      var r := Put(s, k, v);
      assert r == [s[0]] + rest;
      forall i, j | 0 <= i < j < |r|
        ensures r[i].0 != r[j].0
      {
        if i == 0 {
          var w := rest[j - 1].0;
          if w != k {
            assert w in Keys(rest);
            assert Lookup(rest, w) == Lookup(s[1..], w);
            assert w in Keys(s[1..]);
            var m :| 0 <= m < |s[1..]| && Keys(s[1..])[m] == w;
            assert s[m + 1].0 == w;
          }
        }
      }
    } else if s != [] {
      var r := Put(s, k, v);
      forall i, j | 0 <= i < j < |r|
        ensures r[i].0 != r[j].0
      {
        assert r[j] == s[j];
        if i > 0 {
          assert r[i] == s[i];
        }
      }
    }
  }
}

=== FILE: vocabulary.dfy ===
/** `create_vocabulary`: count the whitespace-separated words of every sentence and
    keep those seen at least `min_count` times. */
module Vocabulary {
  import opened Whitespace

  /** How often `w` occurs among the words of the sentences (the reference count). */
  function Occurrences(sentences: seq<string>, w: string): nat {
    if sentences == [] then 0
    else Occurrences(sentences[..|sentences| - 1], w) + multiset(Split(sentences[|sentences| - 1]))[w]
  }

  /** The counts of a concatenation of corpora add up: it does not matter how the
      sentences are grouped. */
  lemma {:induction false} OccurrencesConcat(a: seq<string>, b: seq<string>, w: string)
    ensures Occurrences(a + b, w) == Occurrences(a, w) + Occurrences(b, w)
    decreases |b|
  {
    if b == [] {
      assert a + b == a;
    } else {
      var b0 := b[..|b| - 1];
      assert (a + b)[..|a + b| - 1] == a + b0;
      assert (a + b)[|a + b| - 1] == b[|b| - 1];
      OccurrencesConcat(a, b0, w);
    }
  }

  /** Only words are ever counted: a string that is empty or holds whitespace
      never occurs. */
  lemma {:induction false} OnlyWordsOccur(sentences: seq<string>, w: string)
    requires !IsWord(w)
    ensures Occurrences(sentences, w) == 0
    decreases |sentences|
  {
    if sentences != [] {
      OnlyWordsOccur(sentences[..|sentences| - 1], w);
      SplitYieldsWords(sentences[|sentences| - 1]);
    }
  }

  /** `word_counts.get(w, 0)`. */
  function Count(counts: map<string, nat>, w: string): nat {
    if w in counts then counts[w] else 0
  }

  /** Only words seen at least once have an entry. */
  predicate Positive(counts: map<string, nat>) {
    forall w :: w in counts ==> counts[w] > 0
  }

  /** The inner loop of `create_vocabulary`: count each word of one sentence. */
  method AddWords(counts: map<string, nat>, words: seq<string>) returns (r: map<string, nat>)
    requires Positive(counts)
    ensures Positive(r)
    ensures forall w :: Count(r, w) == Count(counts, w) + multiset(words)[w]
  {
    r := counts;
    var j := 0;
    while j < |words|
      invariant 0 <= j <= |words|
      invariant Positive(r)
      invariant forall w :: Count(r, w) == Count(counts, w) + multiset(words[..j])[w]
    {
      var word := words[j];
      r := r[word := Count(r, word) + 1];
      assert words[..j + 1] == words[..j] + [word];
      j := j + 1;
    }
    assert words[..j] == words;
  }

  /** `create_vocabulary`: every word counted at least `minCount` times, with its
      count. A word that never occurs is left out even when `minCount <= 0`, since
      `create_vocabulary` only counts words it sees. */
  method CreateVocabulary(sentences: seq<string>, minCount: int) returns (vocab: map<string, nat>)
    ensures forall w :: w in vocab <==> Occurrences(sentences, w) > 0 && Occurrences(sentences, w) >= minCount
    ensures forall w :: w in vocab ==> vocab[w] == Occurrences(sentences, w)
  {
    var counts: map<string, nat> := map[];
    var i := 0;
    while i < |sentences|
      invariant 0 <= i <= |sentences|
      invariant Positive(counts)
      invariant forall w :: Count(counts, w) == Occurrences(sentences[..i], w)
    {
      assert sentences[..i + 1][..i] == sentences[..i];
      counts := AddWords(counts, Split(sentences[i]));
      i := i + 1;
    }
    assert sentences[..i] == sentences;
    vocab := map w | w in counts && counts[w] >= minCount :: counts[w];
  }

  /** Every key of the vocabulary is a word `str.split()` could produce. */
  lemma VocabularyKeysAreWords(sentences: seq<string>, w: string)
    requires Occurrences(sentences, w) > 0
    ensures IsWord(w)
  {
    if !IsWord(w) {
      OnlyWordsOccur(sentences, w);
    }
  }
}

=== FILE: whitespace.dfy ===
/** Python's whitespace handling on `str`: the `isspace` character class (which
    `re`'s `\s`, `str.split()` and `str.strip()` all share), whitespace
    splitting, `' '.join`, run collapsing and trimming. */
module Whitespace {

  /** Python's `str.isspace` for one character: the ASCII controls TAB..CR and
      FS..US, SPACE, NEL, NO-BREAK SPACE and the Unicode space separators,
      line and paragraph separators. */
  predicate IsSpace(c: char) {
    var n := c as int;
    || (0x09 <= n <= 0x0D) || (0x1C <= n <= 0x20) || n == 0x85 || n == 0xA0
    || n == 0x1680 || (0x2000 <= n <= 0x200A) || n == 0x2028 || n == 0x2029
    || n == 0x202F || n == 0x205F || n == 0x3000
  }

  /** `s` holds no whitespace character. */
  predicate NoSpace(s: string) {
    forall i :: 0 <= i < |s| ==> !IsSpace(s[i])
  }

  /** A word as `str.split()` produces it: non-empty, no whitespace. */
  predicate IsWord(w: string) {
    w != [] && NoSpace(w)
  }

  /** Every element is a word. */
  predicate AllWords(ws: seq<string>) {
    forall i :: 0 <= i < |ws| ==> IsWord(ws[i])
  }

  /** The shape `normalize_text` promises: no whitespace at either end, and each
      whitespace character is an ASCII space followed by a non-space. */
  predicate WellSpaced(s: string) {
    && (s != [] ==> !IsSpace(s[0]) && !IsSpace(s[|s| - 1]))
    && forall i :: 0 <= i < |s| && IsSpace(s[i]) ==> s[i] == ' ' && i + 1 < |s| && !IsSpace(s[i + 1])
  }

  /** Each whitespace character is an ASCII space, and no whitespace follows it. */
  predicate SingleSpaced(s: string) {
    forall i :: 0 <= i < |s| && IsSpace(s[i]) ==> s[i] == ' ' && (i + 1 < |s| ==> !IsSpace(s[i + 1]))
  }

  /** `r` is `s[i..j]`, and everything of `s` outside that slice is whitespace. */
  predicate TrimmedSlice(s: string, r: string, i: int, j: int) {
    && 0 <= i <= j <= |s| && r == s[i..j]
    && (forall k :: 0 <= k < i ==> IsSpace(s[k]))
    && (forall k :: j <= k < |s| ==> IsSpace(s[k]))
  }

  /** `s` with its leading whitespace removed (`str.lstrip()`). */
  function TrimLeft(s: string): (r: string)
    ensures |r| <= |s|
    ensures r != [] ==> !IsSpace(r[0])
  {
    if s == [] || !IsSpace(s[0]) then s else TrimLeft(s[1..])
  }

  /** `s` with its trailing whitespace removed (`str.rstrip()`). */
  function TrimRight(s: string): (r: string)
    ensures r <= s
    ensures r != [] ==> !IsSpace(r[|r| - 1])
  {
    if s == [] || !IsSpace(s[|s| - 1]) then s else TrimRight(s[..|s| - 1])
  }

  /** `str.strip()` with no argument. */
  function Strip(s: string): (r: string)
    ensures |r| <= |s|
    ensures r != [] ==> !IsSpace(r[0]) && !IsSpace(r[|r| - 1])
    ensures exists i, j :: TrimmedSlice(s, r, i, j)
  {
    var r := TrimRight(TrimLeft(s));
    StripSlice(s);
    assert TrimmedSlice(s, r, |s| - |TrimLeft(s)|, |s| - |TrimLeft(s)| + |r|);
    r
  }

  /** The longest whitespace-free prefix of `s`. */
  function Word(s: string): (w: string)
    ensures w <= s && NoSpace(w)
    ensures |w| < |s| ==> IsSpace(s[|w|])
    ensures s != [] && !IsSpace(s[0]) ==> w != []
  {
    if s == [] || IsSpace(s[0]) then [] else [s[0]] + Word(s[1..])
  }

  /** `str.split()` with no argument: the maximal whitespace-free runs of `s`. */
  function Split(s: string): (ws: seq<string>)
    ensures ws == [] <==> forall i :: 0 <= i < |s| ==> IsSpace(s[i])
    decreases |s|
  {
    var t := TrimLeft(s);
    TrimLeftAllSpace(s);
    if t == [] then []
    else
      var w := Word(t);
      [w] + Split(t[|w|..])
  }

  /** `' '.join(ws)`. */
  function JoinSpace(ws: seq<string>): (r: string)
    ensures ws != [] ==> ws[0] <= r
    ensures AllWords(ws) ==> (r == [] <==> ws == [])
  {
    if ws == [] then []
    else if |ws| == 1 then ws[0]
    else ws[0] + " " + JoinSpace(ws[1..])
  }

  /** `re.sub(r"\s+", " ", s)`: every maximal whitespace run becomes one ASCII space. */
  function Collapse(s: string): (r: string)
    ensures |r| <= |s|
    ensures r == [] <==> s == []
    ensures SingleSpaced(r)
    decreases |s|
  {
    if s == [] then []
    else if IsSpace(s[0]) then
      var t := TrimLeft(s);
      assert t != [] ==> Collapse(t)[0] == t[0];
      SingleSpacedCons(' ', Collapse(t));
      " " + Collapse(t)
    else
      SingleSpacedCons(s[0], Collapse(s[1..]));
      [s[0]] + Collapse(s[1..])
  }

  /** The characters of `s` that are not whitespace, in order. */
  function NonSpace(s: string): string {
    if s == [] then []
    else (if IsSpace(s[0]) then [] else [s[0]]) + NonSpace(s[1..])
  }

  /** Concatenation of a list of strings. */
  function Concat(ws: seq<string>): string {
    if ws == [] then [] else ws[0] + Concat(ws[1..])
  }

  // ---------------------------------------------------------------------------
  // Lemmas

  /** `lstrip` removes everything exactly when everything is whitespace. */
  lemma {:induction false} TrimLeftAllSpace(s: string)
    ensures TrimLeft(s) == [] <==> forall i :: 0 <= i < |s| ==> IsSpace(s[i])
    decreases |s|
  {
    if s != [] && IsSpace(s[0]) {
      TrimLeftAllSpace(s[1..]);
      assert forall i :: 0 < i < |s| ==> s[i] == s[1..][i - 1];
    }
  }

  /** `lstrip` keeps a suffix and removes only whitespace. */
  lemma {:induction false} TrimLeftDrops(s: string)
    ensures TrimLeft(s) == s[|s| - |TrimLeft(s)|..]
    ensures forall k :: 0 <= k < |s| - |TrimLeft(s)| ==> IsSpace(s[k])
    decreases |s|
  {
    if s != [] && IsSpace(s[0]) {
      TrimLeftDrops(s[1..]);
      assert forall k :: 0 < k < |s| ==> s[k] == s[1..][k - 1];
    }
  }

  /** `rstrip` removes only whitespace. */
  lemma {:induction false} TrimRightDrops(s: string)
    ensures forall k :: |TrimRight(s)| <= k < |s| ==> IsSpace(s[k])
    decreases |s|
  {
    if s != [] && IsSpace(s[|s| - 1]) {
      TrimRightDrops(s[..|s| - 1]);
    }
  }

  /** `rstrip` after `lstrip` keeps a slice of `s` and removes only whitespace around it. */
  lemma StripSlice(s: string)
    ensures var t := TrimLeft(s); var i := |s| - |t|;
      TrimmedSlice(s, TrimRight(t), i, i + |TrimRight(t)|)
  {
    var t := TrimLeft(s);
    var r := TrimRight(t);
    var i := |s| - |t|;
    TrimLeftDrops(s);
    TrimRightDrops(t);
    assert r == t[..|r|];
    forall k | i + |r| <= k < |s| ensures IsSpace(s[k]) {
      assert s[k] == t[k - i];
    }
  }

  /** Putting a character in front keeps single spacing when a space is not followed by whitespace. */
  lemma SingleSpacedCons(c: char, t: string)
    requires SingleSpaced(t)
    requires IsSpace(c) ==> c == ' ' && (t != [] ==> !IsSpace(t[0]))
    ensures SingleSpaced([c] + t)
  {
    var r := [c] + t;
    forall i | 0 <= i < |r| && IsSpace(r[i])
      ensures r[i] == ' ' && (i + 1 < |r| ==> !IsSpace(r[i + 1]))
    {
      if i > 0 {
        assert r[i] == t[i - 1];
        if i + 1 < |r| { assert r[i + 1] == t[i]; }
      }
    }
  }

  /** Collapsing whitespace runs keeps the words: `re.sub(r"\s+", " ", s).split() == s.split()`. */
  lemma {:induction false} CollapseKeepsWords(s: string)
    ensures Split(Collapse(s)) == Split(s)
    decreases |s|
  {
    if s != [] {
      if IsSpace(s[0]) {
        var t := TrimLeft(s);
        CollapseKeepsWords(t);
        SplitSpaceCons(Collapse(t));
        SplitTrimLeft(s);
      } else {
        CollapseSplitCons(s);
        var w := Word(s);
        var rest := s[|w|..];
        CollapseKeepsWords(rest);
        assert rest != [] ==> Collapse(rest)[0] == ' ';
        SplitCons(w, Collapse(rest));
      }
    }
  }

  /** `lstrip` twice is `lstrip` once. */
  lemma TrimLeftIdempotent(s: string)
    ensures TrimLeft(TrimLeft(s)) == TrimLeft(s)
  {
  }

  /** Every piece `str.split()` returns is a non-empty, whitespace-free word. */
  lemma {:induction false} SplitYieldsWords(s: string)
    ensures AllWords(Split(s))
    decreases |s|
  {
    var t := TrimLeft(s);
    if t != [] {
      var w := Word(t);
      var rest := Split(t[|w|..]);
      SplitYieldsWords(t[|w|..]);
      assert Split(s) == [w] + rest;
      AllWordsCons(w, rest);
    }
  }

  /** Prepending a word to a list of words gives a list of words. */
  lemma AllWordsCons(w: string, ws: seq<string>)
    requires IsWord(w) && AllWords(ws)
    ensures AllWords([w] + ws)
  {
    var r := [w] + ws;
    forall i | 0 <= i < |r|
      ensures IsWord(r[i])
    {
      if i > 0 {
        assert r[i] == ws[i - 1];
      }
    }
  }

  /** Leading whitespace is irrelevant to splitting. */
  lemma SplitTrimLeft(s: string)
    ensures Split(TrimLeft(s)) == Split(s)
  {
    TrimLeftIdempotent(s);
  }

  /** The word before a space is exactly that word. */
  lemma {:induction false} WordOfJoined(w: string, rest: string)
    requires NoSpace(w)
    requires rest != [] && IsSpace(rest[0])
    ensures Word(w + rest) == w
    decreases |w|
  {
    if w == [] {
      assert w + rest == rest;
    } else {
      assert (w + rest)[1..] == w[1..] + rest;
      WordOfJoined(w[1..], rest);
    }
  }

  /** The word of a whitespace-free string is the whole string. */
  lemma {:induction false} WordOfWord(w: string)
    requires NoSpace(w)
    ensures Word(w) == w
    decreases |w|
  {
    if w != [] {
      WordOfWord(w[1..]);
    }
  }

  /** A joined list of words starts with its first word and keeps word characters at both ends. */
  lemma {:induction false} JoinSpaceEnds(ws: seq<string>)
    requires AllWords(ws) && ws != []
    ensures JoinSpace(ws) != []
    ensures JoinSpace(ws)[0] == ws[0][0]
    ensures !IsSpace(JoinSpace(ws)[|JoinSpace(ws)| - 1])
    decreases |ws|
  {
    if |ws| > 1 {
      JoinSpaceEnds(ws[1..]);
    }
  }

  /** Splitting a word followed by whitespace (or nothing) yields that word first. */
  lemma SplitCons(w: string, rest: string)
    requires IsWord(w)
    requires rest == [] || IsSpace(rest[0])
    ensures Split(w + rest) == [w] + Split(rest)
  {
    var s := w + rest;
    assert s[0] == w[0];
    assert TrimLeft(s) == s;
    if rest == [] {
      assert s == w;
      WordOfWord(w);
    } else {
      WordOfJoined(w, rest);
    }
    assert s[|w|..] == rest;
  }

  /** A single leading space is irrelevant to splitting. */
  lemma SplitSpaceCons(rest: string)
    ensures Split(" " + rest) == Split(rest)
  {
    assert TrimLeft(" " + rest) == TrimLeft(rest);
    SplitTrimLeft(rest);
    SplitTrimLeft(" " + rest);
  }

  /** `' '.join` of two or more words puts one space after the first. */
  lemma JoinSpaceCons(ws: seq<string>)
    requires |ws| > 1
    ensures JoinSpace(ws) == ws[0] + (" " + JoinSpace(ws[1..]))
  {
  }

  /** One step of the split/join round trip. */
  lemma SplitJoinSpaceStep(ws: seq<string>)
    requires |ws| > 1 && AllWords(ws)
    requires Split(JoinSpace(ws[1..])) == ws[1..]
    ensures Split(JoinSpace(ws)) == ws
  {
    var rest := JoinSpace(ws[1..]);
    JoinSpaceCons(ws);
    SplitCons(ws[0], " " + rest);
    SplitSpaceCons(rest);
    assert ws == [ws[0]] + ws[1..];
  }

  /** Splitting undoes `' '.join` on a list of words. */
  lemma {:induction false} SplitJoinSpace(ws: seq<string>)
    requires AllWords(ws)
    ensures Split(JoinSpace(ws)) == ws
    decreases |ws|
  {
    if |ws| == 1 {
      SplitCons(ws[0], []);
      assert ws[0] + [] == ws[0];
    } else if |ws| > 1 {
      SplitJoinSpace(ws[1..]);
      SplitJoinSpaceStep(ws);
    }
  }

  /** `Collapse` copies a leading word through unchanged. */
  lemma {:induction false} CollapseWord(w: string, rest: string)
    requires NoSpace(w)
    ensures Collapse(w + rest) == w + Collapse(rest)
    decreases |w|
  {
    if w == [] {
      assert w + rest == rest;
    } else {
      assert (w + rest)[1..] == w[1..] + rest;
      CollapseWord(w[1..], rest);
    }
  }

  /** Trimming on the right does not reach into a prefix when the rest keeps a non-space. */
  lemma {:induction false} TrimRightAppend(a: string, b: string)
    requires TrimRight(b) != []
    ensures TrimRight(a + b) == a + TrimRight(b)
    decreases |b|
  {
    if IsSpace(b[|b| - 1]) {
      assert (a + b)[..|a + b| - 1] == a + b[..|b| - 1];
      TrimRightAppend(a, b[..|b| - 1]);
    }
  }

  /** A word then a space-led remainder: how `Collapse` and `Split` both unfold. */
  lemma CollapseSplitCons(t: string)
    requires t != [] && !IsSpace(t[0])
    ensures var w := Word(t);
      && w != [] && t == w + t[|w|..]
      && Collapse(t) == w + Collapse(t[|w|..])
      && Split(t) == [w] + Split(t[|w|..])
      && (t[|w|..] != [] ==> IsSpace(t[|w|]))
  {
    var w := Word(t);
    var rest := t[|w|..];
    WordSplitsOff(t);
    SplitOfWordStart(t);
    CollapseWord(w, rest);
  }

  /** A string is its first word followed by the rest. */
  lemma WordSplitsOff(t: string)
    ensures t == Word(t) + t[|Word(t)|..]
  {
  }

  /** `Split` of a string that starts with a word peels off that word. */
  lemma SplitOfWordStart(t: string)
    requires t != [] && !IsSpace(t[0])
    ensures Split(t) == [Word(t)] + Split(t[|Word(t)|..])
  {
    assert TrimLeft(t) == t;
  }

  /** After the first word, a run of whitespace collapses to one space and splits to nothing. */
  lemma CollapseSplitSpaceRun(rest: string)
    requires rest != [] && IsSpace(rest[0])
    ensures Collapse(rest) == " " + Collapse(TrimLeft(rest))
    ensures Split(rest) == Split(TrimLeft(rest))
  {
    SplitTrimLeft(rest);
  }

  /** The inductive step of `TrimRightCollapse`. */
  lemma TrimRightCollapseStep(w: string, r2: string)
    requires IsWord(w)
    requires r2 != [] && !IsSpace(r2[0])
    requires TrimRight(Collapse(r2)) == JoinSpace(Split(r2))
    ensures TrimRight(w + " " + Collapse(r2)) == JoinSpace([w] + Split(r2))
  {
    var ws := Split(r2);
    var t := TrimLeft(r2);
    assert t == r2;
    assert ws == [Word(r2)] + Split(r2[|Word(r2)|..]);
    assert ws != [];
    SplitYieldsWords(r2);
    JoinSpaceEnds(ws);
    TrimRightAppend(w + " ", Collapse(r2));
    assert ([w] + ws)[1..] == ws;
  }

  /** `TrimRightCollapse` when the text is a single word. */
  lemma TrimRightCollapseLastWord(t: string)
    requires t != [] && !IsSpace(t[0]) && t[|Word(t)|..] == []
    ensures TrimRight(Collapse(t)) == JoinSpace(Split(t))
  {
    CollapseSplitCons(t);
    var w := Word(t);
    assert Collapse(t) == w;
    assert Split(t) == [w];
  }

  /** `TrimRightCollapse` when the text is a single word followed by whitespace. */
  lemma TrimRightCollapseTrailingSpace(t: string)
    requires t != [] && !IsSpace(t[0])
    requires t[|Word(t)|..] != [] && TrimLeft(t[|Word(t)|..]) == []
    ensures TrimRight(Collapse(t)) == JoinSpace(Split(t))
  {
    CollapseSplitCons(t);
    var w := Word(t);
    var rest := t[|w|..];
    CollapseSplitSpaceRun(rest);
    assert Collapse(rest) == " ";
    assert Split(t) == [w];
    TrimRightWordSpace(w);
  }

  /** A word followed by one space trims back to the word. */
  lemma TrimRightWordSpace(w: string)
    requires IsWord(w)
    ensures TrimRight(w + " ") == w
  {
    assert (w + " ")[..|w|] == w;
  }

  /** Concatenation is associative. */
  lemma AppendAssoc<T>(a: seq<T>, b: seq<T>, c: seq<T>)
    ensures a + (b + c) == a + b + c
  {
  }

  /** A word, a whitespace run, then more text: `Collapse` turns the run into one
      space and `Split` skips it. */
  lemma CollapseSplitInner(t: string, r2: string)
    requires t != [] && !IsSpace(t[0])
    requires t[|Word(t)|..] != [] && r2 == TrimLeft(t[|Word(t)|..])
    ensures Collapse(t) == Word(t) + (" " + Collapse(r2))
    ensures Split(t) == [Word(t)] + Split(r2)
  {
    CollapseSplitCons(t);
    CollapseSplitSpaceRun(t[|Word(t)|..]);
  }

  /** `TrimRightCollapse` when more words follow the first, given the claim for the remainder. */
  lemma TrimRightCollapseInner(t: string, r2: string)
    requires t != [] && !IsSpace(t[0])
    requires t[|Word(t)|..] != [] && r2 == TrimLeft(t[|Word(t)|..]) && r2 != []
    requires TrimRight(Collapse(r2)) == JoinSpace(Split(r2))
    ensures TrimRight(Collapse(t)) == JoinSpace(Split(t))
  {
    var w := Word(t);
    CollapseSplitInner(t, r2);
    AppendAssoc(w, " ", Collapse(r2));
    TrimRightCollapseStep(w, r2);
  }

  /** Core of the collapse/split correspondence, for text without leading whitespace. */
  lemma {:induction false} TrimRightCollapse(t: string)
    requires t == [] || !IsSpace(t[0])
    ensures TrimRight(Collapse(t)) == JoinSpace(Split(t))
    decreases |t|
  {
    if t != [] {
      var rest := t[|Word(t)|..];
      if rest == [] {
        TrimRightCollapseLastWord(t);
      } else if TrimLeft(rest) == [] {
        TrimRightCollapseTrailingSpace(t);
      } else {
        TrimRightCollapse(TrimLeft(rest));
        TrimRightCollapseInner(t, TrimLeft(rest));
      }
    }
  }

  /** Collapsing never starts with whitespace when its input does not. */
  lemma CollapseHead(t: string)
    requires t != [] && !IsSpace(t[0])
    ensures Collapse(t) != [] && Collapse(t)[0] == t[0]
  {
  }

  /** Collapsing whitespace runs and then stripping is the same as splitting and
      rejoining with single spaces. */
  lemma CollapseStripIsJoinSplit(s: string)
    ensures Strip(Collapse(s)) == JoinSpace(Split(s))
  {
    var t := TrimLeft(s);
    if t != [] {
      CollapseHead(t);
    }
    if s != [] && IsSpace(s[0]) {
      assert Collapse(s) == " " + Collapse(t);
      assert TrimLeft(Collapse(s)) == TrimLeft(Collapse(t));
    }
    assert TrimLeft(Collapse(s)) == Collapse(t);
    TrimRightCollapse(t);
    SplitTrimLeft(s);
  }

  /** Words joined by single spaces have the `WellSpaced` shape. */
  lemma {:induction false} JoinSpaceWellSpaced(ws: seq<string>)
    requires AllWords(ws)
    ensures WellSpaced(JoinSpace(ws))
    decreases |ws|
  {
    if |ws| > 1 {
      var w := ws[0];
      var rest := JoinSpace(ws[1..]);
      JoinSpaceWellSpaced(ws[1..]);
      JoinSpaceEnds(ws[1..]);
      JoinSpaceEnds(ws);
      var s := w + " " + rest;
      forall i | 0 <= i < |s| && IsSpace(s[i])
        ensures s[i] == ' ' && i + 1 < |s| && !IsSpace(s[i + 1])
      {
        if i > |w| {
          assert s[i] == rest[i - |w| - 1];
          if i + 1 < |s| {
            assert s[i + 1] == rest[i - |w|];
          }
        } else if i == |w| {
          assert s[i + 1] == rest[0];
        }
      }
    }
  }

  /** Splitting keeps every non-whitespace character, in order, and nothing else. */
  lemma {:induction false} SplitKeepsContent(s: string)
    ensures Concat(Split(s)) == NonSpace(s)
    decreases |s|
  {
    var t := TrimLeft(s);
    NonSpaceOfTrimLeft(s);
    if t != [] {
      var w := Word(t);
      var rest := t[|w|..];
      assert t == w + rest;
      NonSpaceAppend(w, rest);
      NonSpaceOfWord(w);
      SplitKeepsContent(rest);
    }
  }

  /** Trimming on the left removes only whitespace. */
  lemma {:induction false} NonSpaceOfTrimLeft(s: string)
    ensures NonSpace(TrimLeft(s)) == NonSpace(s)
    decreases |s|
  {
    if s != [] && IsSpace(s[0]) {
      NonSpaceOfTrimLeft(s[1..]);
    }
  }

  /** `NonSpace` distributes over concatenation. */
  lemma {:induction false} NonSpaceAppend(a: string, b: string)
    ensures NonSpace(a + b) == NonSpace(a) + NonSpace(b)
    decreases |a|
  {
    if a == [] {
      assert a + b == b;
    } else {
      assert (a + b)[1..] == a[1..] + b;
      NonSpaceAppend(a[1..], b);
    }
  }

  /** A whitespace-free string keeps all its characters. */
  lemma {:induction false} NonSpaceOfWord(w: string)
    requires NoSpace(w)
    ensures NonSpace(w) == w
    decreases |w|
  {
    if w != [] {
      NonSpaceOfWord(w[1..]);
    }
  }
}

=== FILE: wrappers.dfy ===
/** Failure-carrying result types shared by the whole model. */
module Wrappers {

  /** A value that may be absent (Python's `Optional[...]` / `None`). */
  datatype Option<+T> = None | Some(value: T)

  /** The outcome of an operation that may raise: either its value or the error it raises. */
  datatype Result<+T, +E> = Ok(value: T) | Err(error: E)
}
